=== FILE: README.md ===
# pipetex in Dafny

pipetex turns a LaTeX source into a PDF by running a fixed list of steps on a
working copy of the file:

1. copy the source under a prefixed name;
2. remove the `draft` class option;
3. compile;
4. optionally build the bibliography and the glossary;
5. compile again;
6. move the PDF into a `DEPLOY` folder and delete the working files.

Every step returns a pair `(success, error)`. The pipeline folds the errors by
severity:

- a LOW error is recorded;
- a HIGH error is recorded and marks the run as failed;
- a CRITICAL error stops the run at once.

This project models that core and proves what it does:

- `Pipelines`: the pipeline object, its step list and `execute`.
- `ErrorPolicy`: `_set_error` and the severity fold that `execute` performs.
- `Exceptions`, `Enums`: the error record and the severity order.
- `Operations`: the steps, over an abstract working directory.
- `ClassLine`: the class-line rewrite, with the regular expressions
  `\[(.+?)\]` and `\{(.+?)\}` modelled character by character.
- `LegacyOperations`, `LegacyExceptions`, `LegacyEnums`: the older draft of
  the steps and of the error record.
- `Text`: the Python string and list built-ins the steps use. These are
  `str.split`, `str.join`, reading and writing a file line by line,
  `list.index`/`list.pop`, `in` on strings and `str(int)`.
- `Workspace`, `Wrappers`: the shared state types.

## How the model is built

- **The configuration dictionary** is the record `Config(newName, filePrefix,
  verbose)`. `newName` is `None` until the copy step writes it.
- **The working directory** is `Dir`. It maps each file name to its text, holds
  the DEPLOY folder (absent or a map), and lists the file names in other
  sub-directories (which only the bibliography search sees).
- **A step** is a function from the file name, the configuration and the
  directory to `Done(state, success, error)`. A step whose Python code raises
  an exception it does not catch gives `Raised(reason)` instead. That happens
  for an empty source file, a class line without a `[...]` group, a draft
  option without a `{...}` group, a PDF of the same name already in DEPLOY (whether or not the
  PDF to move exists, since `shutil.move` checks the target first), a PDF to
  move when DEPLOY is a plain file, or a prefix that is a substring of
  "DEPLOY". `execute` lets such an
  exception escape; the model returns `Propagated`.
- **External programs** (pdflatex, biber, makeglossaries) are a `Tool`
  parameter: a function of the argument list and the directory. The date stamp
  used for the deployed PDF's name is a parameter too.
- **Imperative code** stays imperative where the source is:
  - `Pipeline` is a class whose constructor builds the step list by appends;
  - `Execute` is the loop of `execute`, with its early returns, and updates
    the pipeline's configuration field;
  - `IsBibfilePresent`, `MovePdfFile`, `RemovePrefixedEntries` and
    `CleanWorkingDir` are methods with the source's loops and flag variables.

  Each is proved equal to a function (`RunAll`, `HasBibFile`, `MoveOutcome`,
  `WithoutPrefixed`, `CleanOutcome`). Lemmas about that function then state
  what the source promises.
- **Execute** takes the steps as a parameter `step: StepFunction`, just as the
  Python loop calls whatever functions `order_of_operations` holds. `StepsOf(env)`
  is the step function of this model, built from the `Operations` functions;
  the scenario lemmas use it.

### `_set_error` and its docstring

The docstring of `_set_error` (src/pipetex/pipeline.py:97-98) says that when
two errors are equally severe the current one is kept, as the likely root
cause. The code (src/pipetex/pipeline.py:107-111) keeps the current error only
when the new one is strictly less severe, so on a tie it returns the new
error. The model follows the code:

- `ErrorPolicy.SetErrorOnTie` proves that on a tie the result is `==` to the
  current error (equality compares severities only) but is the new object.
- `ErrorPolicy.SetErrorReplacesEquallySevere` gives two HIGH errors with
  different messages for which the current one is not returned.

### `_move_pdf_file` and its docstring

The docstring of `_move_pdf_file` lists HIGH as the level it reports
(src/pipetex/operations.py:330). The code reports LOW when DEPLOY already
exists (src/pipetex/operations.py:344-349) and CRITICAL when the PDF is
missing (src/pipetex/operations.py:356-362), and never HIGH. The model follows
the code: `Operations.MoveOutcome` states that every error it returns is LOW
or CRITICAL.

### The deployed PDF's name

`clean_working_dir` is called from the pipeline without a new name, so the PDF
is deployed as `<stamp>_<name>.pdf` (src/pipetex/operations.py:335-338), where
the stamp is the date and time of the move.

## Model

| member | source | states |
|---|---|---|
| Enums.SeverityLevels.Value | src/pipetex/enums.py:18-20 | each level's value is a multiple of 10 between 10 and 30 |
| Enums.SeverityValues | src/pipetex/enums.py:11-20 | LOW = 10, HIGH = 20, CRITICAL = 30, strictly increasing with seriousness |
| Enums.FromValue | src/pipetex/enums.py:11-20 | looking a level up by its value finds a level with that value, and finds none exactly when no level has it |
| Enums.SeverityValueRoundTrip | src/pipetex/enums.py:18-20 | looking up a level's value gives back that level; distinct levels have distinct values |
| Enums.ConfigKeysDistinctSnakeCase | src/pipetex/enums.py:23-34 | every configuration key is a snake_case string and no two keys share a string |
| LegacyEnums.LegacySeverityValues | src/pipetex/utils/enums.py:11-16 | the older enumeration has LOW = 10 < HIGH = 20 < CRITICAL = 30, the same values as the current one |
| Exceptions.InternalException.ToString | src/pipetex/exceptions.py:62-66 | the text starts with the cause (or "InternalException") and " (", and ends with ") \| " and the message |
| Exceptions.New | src/pipetex/exceptions.py:40-60 | message and cause are stored unchanged, and `severity_level` is the integer value of the level, which reads back as that level |
| Exceptions.NewWithoutCause | src/pipetex/exceptions.py:40-55 | without a cause the cause is None and the text starts with "InternalException (" |
| Exceptions.SeverityReadsBack | src/pipetex/exceptions.py:62-66 | the number printed between the parentheses parses back to the error's severity |
| Exceptions.EqIgnoresMessageAndCause | src/pipetex/exceptions.py:73-75 | two errors of equal severity are `==` whatever their messages and causes, even when the records differ |
| Exceptions.ComparisonsAreOrdered | src/pipetex/exceptions.py:73-87 | exactly one of `<`, `==`, `>` holds; `<=` is `<` or `==`; `>=` is not `<`; `<` is transitive and `==` an equivalence |
| LegacyExceptions.InternalException.ToString | src/pipetex/utils/exceptions.py:61-64 | without a cause the text starts with "InternalException (", with a cause it starts with the cause; it ends with ") \| " and the message |
| LegacyExceptions.New | src/pipetex/utils/exceptions.py:40-59 | message and cause stored unchanged, cause defaulting to None, severity the level's integer value |
| LegacyExceptions.RendersLikeCurrent | src/pipetex/utils/exceptions.py:61-64 | the older record renders exactly as the current one with the same fields |
| Text.JoinSplit | src/pipetex/operations.py:111 | joining the pieces of `s.split(sep)` with `sep` gives back `s` |
| Text.SplitJoin | src/pipetex/operations.py:124 | splitting a join gives back its pieces when none holds the separator |
| Text.LinesOfTail | src/pipetex/operations.py:106-130 | the lines after the first line of a file, written back and read again, are unchanged |
| Text.LinesAfterLine | src/pipetex/operations.py:127-130 | writing a complete line before a text adds exactly that line in front of the text's lines |
| Text.LinesAfterPartialLine | src/pipetex/operations/operations.py:113-116 | writing a line without its line break before a text merges it into the text's first line |
| Text.RemoveFirst | src/pipetex/operations.py:115 | `xs.pop(xs.index(x))` removes exactly one `x`, the first, keeping the order of the rest, and leaves a list without `x` unchanged |
| Text.IntRoundTrip | src/pipetex/exceptions.py:66 | the decimal text of an integer parses back to it |
| ClassLine.FirstGroup | src/pipetex/operations.py:111-112 | the first match of `open(.+?)close` is a nonempty text without a line break |
| ClassLine.GroupAfter | src/pipetex/operations.py:111-112 | for either expression `open(.+?)close`: the first match in `pre open body close post` is `body`, when `pre` has no `open` and `body` is nonempty with neither `close` nor a line break |
| ClassLine.RewriteClassLine | src/pipetex/operations.py:109-127 | no `" draft"` option gives LOW; no `[...]` group, or a draft option without a `{...}` group, raises; otherwise the line is rebuilt from the options without the first `" draft"` and the first brace group, ending in a line break when the caller asks for one and holding none otherwise |
| ClassLine.RebuiltLineReadsBack | src/pipetex/operations.py:124-127 | reading a rebuilt line back finds the options and the class it was built from, when no option holds ',' and the options join to a nonempty text without `]`, `{` or a line break, and the class is nonempty without `}` or a line break |
| ClassLine.RewriteReadsBack | src/pipetex/operations.py:111-127 | when the kept options join to a nonempty text without `]` or `{` and the class has no `}`: the rewritten line reads back as the kept options, with one `" draft"` fewer and the others in order, and the same class; after removing the only option the rebuilt `[]` no longer reads back |
| Operations.Arguments | src/pipetex/operations.py:169-171 | quiet: `[program, flag, target]`; verbose: the same list with the flag popped once |
| Operations.QuietExactlyWhenNotVerbose | src/pipetex/operations.py:237-240 | when neither the program nor the target is the flag itself: the quiet flag is passed exactly when the configuration is not verbose, and the target is always last |
| Operations.CopyLatexFile | src/pipetex/operations.py:27-68 | without `name.tex`: `(False, CRITICAL)` and nothing changes; otherwise `(True, None)`, `new_name = prefix_name`, the copy holds the original's text and every other file is kept |
| Operations.RemoveDraftOption | src/pipetex/operations.py:71-132 | without `name.tex`: CRITICAL, nothing changes; empty file or malformed class line: raises; no draft option: `(False, LOW)`, nothing changes; a well-formed class line with a draft option always succeeds; on success only `name.tex` changes, it keeps its number of lines, its first line is the rewritten class line and the other lines are unchanged |
| Operations.RewrittenFileKeepsLines | src/pipetex/operations.py:127-130 | writing back the lines with the first replaced by a complete line yields exactly those lines |
| Operations.CompileLatexFile | src/pipetex/operations.py:136-175 | without `name.tex`: CRITICAL, nothing changes; otherwise pdflatex runs on `name.tex` with the argument list for the verbose setting and the step succeeds |
| Operations.IsBibfilePresent | src/pipetex/operations.py:178-191 | the collected extensions contain "bib" exactly when some file anywhere under the working directory has a '.' and the extension "bib" |
| Operations.BibliographyOutcome | src/pipetex/operations.py:194-244 | without `name.bcf`: HIGH; then without any .bib file: HIGH; otherwise biber runs on the name and the step succeeds |
| Operations.CreateBibliography | src/pipetex/operations.py:194-244 | the step with its loop returns what `BibliographyOutcome` describes |
| Operations.CreateGlossary | src/pipetex/operations.py:247-306 | the first missing file among `.glo`, `.ist`, `.aux` gives HIGH naming that file; success exactly when all three exist, and then makeglossaries runs |
| Operations.DeployName | src/pipetex/operations.py:335-338 | the deployed name is `new_file_name` when given and nonempty, otherwise `<stamp>_<name>` |
| Operations.MoveOutcome | src/pipetex/operations.py:310-364 | raises exactly when DEPLOY already holds the PDF (checked before the source, so also when the PDF is missing), or when the PDF exists and DEPLOY is a plain file; otherwise a missing PDF gives CRITICAL (replacing the LOW), and the directory is left as it was except that an absent DEPLOY is created empty; otherwise the PDF leaves the working directory and is in DEPLOY under the deployed name, with success exactly when DEPLOY was created and otherwise LOW |
| Operations.MovePdfFile | src/pipetex/operations.py:310-364 | the method with its two flag variables returns what `MoveOutcome` describes |
| Operations.WithoutPrefixed | src/pipetex/operations.py:394-396 | exactly the files whose name does not contain the prefix are kept, with their text |
| Operations.CleanOutcome | src/pipetex/operations.py:367-398 | a raising move raises; a move error of severity 20 or more is returned at once, with nothing deleted; otherwise it raises exactly when the prefix is in "DEPLOY", and else every file containing the prefix is deleted, the others are kept, and the move's pair is returned |
| Operations.RemovePrefixedEntries | src/pipetex/operations.py:394-396 | the deletion loop raises exactly when the prefix is in "DEPLOY", and otherwise leaves exactly `WithoutPrefixed` |
| Operations.CleanWorkingDir | src/pipetex/operations.py:367-398 | the method returns what `CleanOutcome` describes |
| LegacyOperations.CopyLatexFile | src/pipetex/operations/operations.py:25-59 | CRITICAL without `name.tex`; otherwise `(True, None)`, `new_name = prefix_name` and the copy holds the original's text |
| LegacyOperations.CopyAsCurrent | src/pipetex/operations/operations.py:25-59 | the older copy step leaves the same state and returns the same pair as the current one |
| LegacyOperations.RemoveDraftOption | src/pipetex/operations/operations.py:62-118 | CRITICAL without `name.tex`; raises on an empty file or malformed line; LOW without a draft option; a well-formed class line with a draft option always succeeds, writing the rewritten class line, without a line break, followed by the other lines |
| LegacyOperations.RemoveDraftMergesLines | src/pipetex/operations/operations.py:113-116 | on a file of two or more lines the written file has one line fewer: its first line is the rewritten class line followed by the old second line |
| LegacyOperations.RemoveDraftDiffersFromCurrent | src/pipetex/operations/operations.py:110-116 | on the same input the current step keeps the number of lines and writes a different file |
| LegacyOperations.CompileLatexFile | src/pipetex/operations/operations.py:123-154 | CRITICAL without `name.tex`; otherwise pdflatex always runs with `-quiet` |
| LegacyOperations.CompileIgnoresVerbose | src/pipetex/operations/operations.py:150-152 | the result does not depend on `verbose`, and equals the current step's in quiet mode |
| LegacyOperations.CreateBibliography | src/pipetex/operations/operations.py:157-189 | HIGH only without `name.bcf`; otherwise biber runs with `-q` |
| LegacyOperations.BibliographyWithoutBibFile | src/pipetex/operations/operations.py:176-187 | without any .bib file the older step succeeds where the current one fails |
| LegacyOperations.CreateGlossary | src/pipetex/operations/operations.py:192-242 | `.glo`, `.ist`, `.aux` checked in that order, the first missing one giving HIGH; success exactly when all exist, with makeglossaries run with `-q` |
| LegacyOperations.GlossaryAsCurrentWhenQuiet | src/pipetex/operations/operations.py:192-242 | in quiet mode the older glossary step is the current one |
| ErrorPolicy.SetError | src/pipetex/pipeline.py:90-111 | the result is the new or the current error, at least as severe as both; the current one when the new one is strictly less severe, the new one otherwise |
| ErrorPolicy.SetErrorOnTie | src/pipetex/pipeline.py:97-111 | on equal severity the result is `==` to the current error but is the new one |
| ErrorPolicy.SetErrorReplacesEquallySevere | src/pipetex/pipeline.py:97-111 | there are two equally severe errors for which the current one is not kept |
| ErrorPolicy.Absorb | src/pipetex/pipeline.py:141-204 | LOW merges the error and keeps success; HIGH merges it and clears success; CRITICAL stops with that error; no error or an unrecognised severity changes nothing; a stopped run stays stopped |
| ErrorPolicy.FoldFromContinues | src/pipetex/pipeline.py:128-204 | folding the errors front to back from the state reached after earlier errors is folding all of them |
| ErrorPolicy.FoldWithoutCritical | src/pipetex/pipeline.py:124-179 | without CRITICAL the run keeps going, succeeds exactly when no error is HIGH, and has no error exactly when none was recorded |
| ErrorPolicy.FoldKeepsLastMostSevere | src/pipetex/pipeline.py:159-178 | without CRITICAL the aggregate error is the last of the most severe recorded errors |
| ErrorPolicy.AbortedStays | src/pipetex/pipeline.py:197-198 | once stopped, later errors change nothing |
| ErrorPolicy.FoldStopsAtFirstCritical | src/pipetex/pipeline.py:181-198 | the first CRITICAL error stops the run and is returned with `False` |
| ErrorPolicy.FoldAbortsIffCritical | src/pipetex/pipeline.py:181-198 | the run stops exactly when some error is CRITICAL |
| ErrorPolicy.ReportedResult | src/pipetex/pipeline.py:124-206 | success exactly when no error is HIGH or CRITICAL; with success the error is at most LOW; a run not stopped never reports CRITICAL; no errors give `(True, None)` |
| Pipelines.StepList | src/pipetex/pipeline.py:66-79 | 5 steps plus one per flag: copy, remove draft, compile first, then bibliography and glossary exactly when asked, in that order, then compile and clean |
| Pipelines.InitialConfig | src/pipetex/pipeline.py:83-86 | no `new_name`, `file_prefix` "[piped]" and the given `verbose` |
| Pipelines.Pipeline.constructor | src/pipetex/pipeline.py:66-88 | the appends build exactly `StepList`; the configuration is `InitialConfig`; the file name is stored |
| Pipelines.RunStep | src/pipetex/pipeline.py:130 | calling a step through its method (the loops of the bibliography and clean-up steps) gives what the runner's step function gives |
| Pipelines.PreparationContract | src/pipetex/operations.py:27-175 | copy and compile return `(True, None)` or `(False, CRITICAL)`; the draft removal also `(False, LOW)` |
| Pipelines.BibliographyContract | src/pipetex/operations.py:194-244 | the bibliography step returns `(True, None)` or `(False, HIGH)` |
| Pipelines.GlossaryContract | src/pipetex/operations.py:247-306 | the glossary step returns `(True, None)` or `(False, HIGH)` |
| Pipelines.CleanContract | src/pipetex/operations.py:367-398 | the clean-up returns `(True, None)`, `(False, LOW)` or `(False, CRITICAL)`, and CRITICAL whenever it returns and the PDF is missing |
| Pipelines.NextName | src/pipetex/pipeline.py:132-139 | the next name is `new_name` when set, the previous name otherwise |
| Pipelines.RunFrom | src/pipetex/pipeline.py:128-206 | the steps that returned are the list's operations in order, at most one per remaining operation; a step that raises is not recorded, so a run that propagates an exception recorded fewer steps than remain |
| Pipelines.RunFromFolds | src/pipetex/pipeline.py:124-206 | a run that returns reports the severity fold of the errors its steps returned |
| Pipelines.RunFromStops | src/pipetex/pipeline.py:181-198 | a run that returns early ends with a CRITICAL error; a CRITICAL error can only be the last step, and the run then returns |
| Pipelines.RunFromPassesNames | src/pipetex/pipeline.py:126-139 | the first step gets the name `execute` was called with; each later one gets the `new_name` its predecessor left, or the previous name |
| Pipelines.RunIgnoresSuccessFlags | src/pipetex/pipeline.py:130-141 | steps that differ only in the success flag they return give the same run |
| Pipelines.RunReport | src/pipetex/pipeline.py:124-206 | a CRITICAL error ends the run with `(False, that error)`, discarding what was recorded; otherwise every step ran once, in order, success holds exactly when no step returned HIGH, the error is the last most severe recorded one, never CRITICAL, LOW when success holds, present exactly when some step returned LOW or HIGH, and `(True, None)` without errors |
| Pipelines.MissingSourceStopsAtOnce | tests/test_pipeline.py:170-185 | without `name.tex` the run stops after the copy step with `(False, CRITICAL)` and the directory unchanged |
| Pipelines.CopyRenamesWorkingFile | src/pipetex/pipeline.py:130-139 | with `name.tex` the copy succeeds, sets `new_name` to `[piped]_name`, and the draft removal gets that name |
| Pipelines.Pipeline.Execute | src/pipetex/pipeline.py:114-206 | the loop returns the outcome and leaves the directory and configuration that `RunAll` gives for the held step list and configuration; the step list and file name are unchanged |

## Left out

- External programs: `subprocess.call` of pdflatex, biber and makeglossaries is the opaque `Tool` parameter; its exit code is ignored, as in the source.
- The real file system calls (`os.listdir`, `os.walk`, `shutil`, `os.rename`, `os.makedirs`, `open`) are replaced by the `Dir` value. Sub-directories other than DEPLOY appear only to the bibliography search, not in the listing the clean-up walks.
- After an exception escapes a step, the model does not follow the directory the partly finished Python code leaves.
- `datetime.now()` in `_move_pdf_file`: the formatted stamp is a parameter.
- Reading files: Python's universal newlines also end a line at a lone `\r` or at `\r\n`; the model ends lines only at `\n` and treats `\r` as an ordinary character. UTF-8 decoding errors are not modelled either; a file is a string of characters.
- `os.rename` over an existing name: the model treats the moved PDF's rename as replacing any file of the deployed name in DEPLOY.
- Logging in `execute` and the `main.py` entry point, which produce no results.
- The `quiet` configuration key, which no step reads or writes.
- The clean-up step of the older draft (src/pipetex/operations/operations.py:247-259), which is an empty stub.
- The older draft's import: src/pipetex/operations/operations.py:12 imports `ConfigDictKeys` from src/pipetex/utils/enums.py, which defines only `SeverityLevels` (lines 11-16). As written that module stops with an ImportError when loaded, so none of its steps can run. The `LegacyOperations` steps are modelled as if the import succeeded, to compare their logic with the current steps.
- Pipelines.Pipeline.Execute calls the steps through `StepFunction` values (the functions of `Operations`, via `StepsOf`) rather than through the step methods; `Pipelines.RunStep` and the `ensures` of each step method prove the two agree.

## Findings

| source | as written | input that shows it | evidently intended | confidence | as-written member | corrected member |
|---|---|---|---|---|---|---|
| src/pipetex/operations/operations.py:113 | the rebuilt class line is written back without a line break, so `writelines` glues it to the second line | a file `\documentclass[a4paper, draft]{article}\n\begin{document}\n` is written back as one line `\documentclass[a4paper]{article}\begin{document}\n` | the class line keeps its line break (as src/pipetex/operations.py:127 writes it) and every other line is unchanged | high; not executed | LegacyOperations.RemoveDraftMergesLines | Operations.RemoveDraftOption |

=== FILE: class_line.dfy ===
/**
 * The `\documentclass[...]{...}` line and the rewrite that drops the draft
 * option: the two regular expressions `\[(.+?)\]` and `\{(.+?)\}`, the split of
 * the options on ',', and the rebuilt line.
 */
module ClassLine {
  import opened Wrappers
  import Text

  /** The option the rewrite removes; the leading space is part of it. */
  const DRAFT := " draft"

  /** Where a lazy `.+?` that has reached position `p` stops: the first `close` before any line break. */
  function LazyClose(s: string, p: nat, close: char): (r: Option<nat>)
    ensures r.Some? ==> p <= r.value < |s| && s[r.value] == close
    ensures r.Some? ==> forall j :: p <= j < r.value ==> s[j] != '\n'
    decreases |s| - p
  {
    if p >= |s| then None
    else if s[p] == close then Some(p)
    else if s[p] == '\n' then None
    else LazyClose(s, p + 1, close)
  }

  /** The group of a match of `open(.+?)close` starting at `i` ('.' matches anything but a line break). */
  function GroupAt(s: string, i: nat, open: char, close: char): (r: Option<string>)
    requires i < |s|
    ensures r.Some? ==> |r.value| > 0 && '\n' !in r.value
  {
    if s[i] == open && i + 1 < |s| && s[i + 1] != '\n' then
      match LazyClose(s, i + 2, close)
      case Some(p) =>
        var g := s[i + 1..p];
        assert forall j :: 0 <= j < |g| ==> g[j] == s[i + 1 + j];
        Some(g)
      case None => None
    else None
  }

  function FirstGroupFrom(s: string, i: nat, open: char, close: char): (r: Option<string>)
    ensures r.Some? ==> |r.value| > 0 && '\n' !in r.value
    decreases |s| - i
  {
    if i >= |s| then None
    else match GroupAt(s, i, open, close)
      case Some(g) => Some(g)
      case None => FirstGroupFrom(s, i + 1, open, close)
  }

  /** `re.findall(open(.+?)close, s)[0]`: the group of the leftmost match, None where that list is empty. */
  function FirstGroup(s: string, open: char, close: char): (r: Option<string>)
    ensures r.Some? ==> |r.value| > 0 && '\n' !in r.value
  {
    FirstGroupFrom(s, 0, open, close)
  }

  /** The class options: the first `[...]` group split on ','. */
  function Options(line: string): Option<seq<string>> {
    match FirstGroup(line, '[', ']')
    case None => None
    case Some(g) => Some(Text.Split(g, ','))
  }

  /** The document class: the first `{...}` group. */
  function DocumentClass(line: string): Option<string> {
    FirstGroup(line, '{', '}')
  }

  /** `\documentclass[<options joined by ','>]{<class>}`, followed by '\n' when `newline` is set. */
  function Rebuild(options: seq<string>, docClass: string, newline: bool): string {
    "\\documentclass[" + Text.Join(options, ',') + "]{" + docClass + "}" + (if newline then "\n" else "")
  }

  /** What the rewrite makes of a class line. */
  datatype Rewrite =
    | NoDraft                 // no option equals " draft": the step reports LOW
    | Rewritten(line: string) // the new first line
    | Malformed(reason: string) // Python raises IndexError

  /**
   * The class-line part of remove_draft_option: read the options (IndexError
   * when there is no `[...]` group), look for " draft" (LOW when absent), read
   * the class (IndexError when there is no `{...}` group), rebuild the line
   * without the first " draft".
   */
  function RewriteClassLine(line: string, newline: bool): (r: Rewrite)
    ensures r.NoDraft? <==> Options(line).Some? && DRAFT !in Options(line).value
    ensures r.Malformed? <==> Options(line).None? || (DRAFT in Options(line).value && DocumentClass(line).None?)
    ensures r.Rewritten? ==>
              && Options(line).Some? && DocumentClass(line).Some?
              && r.line == Rebuild(Text.RemoveFirst(Options(line).value, DRAFT), DocumentClass(line).value, newline)
    ensures r.Rewritten? && newline ==> Text.IsLine(r.line, false)
    ensures r.Rewritten? && !newline ==> '\n' !in r.line
  {
    match Options(line)
    case None => Malformed("IndexError: no [...] group in the class line")
    case Some(options) =>
      if DRAFT !in options then NoDraft
      else match DocumentClass(line)
        case None => Malformed("IndexError: no {...} group in the class line")
        case Some(docClass) =>
          var kept := Text.RemoveFirst(options, DRAFT);
          KeptOptions(FirstGroup(line, '[', ']').value);
          var r := Rebuild(kept, docClass, newline);
          LineBreaks(kept, docClass, newline);
          Rewritten(r)
  }

  /** The options kept from a group without line breaks hold neither ',' nor a line break, and neither does their join. */
  lemma KeptOptions(g: string)
    requires '\n' !in g
    ensures var kept := Text.RemoveFirst(Text.Split(g, ','), DRAFT);
            && (forall i :: 0 <= i < |kept| ==> ',' !in kept[i] && '\n' !in kept[i])
            && '\n' !in Text.Join(kept, ',')
  {
    var options := Text.Split(g, ',');
    var kept := Text.RemoveFirst(options, DRAFT);
    Text.SplitAvoids(g, ',', '\n');
    Text.RemoveFirstKeepsElements(options, DRAFT);
    Text.JoinAvoids(kept, ',', '\n');
  }

  lemma LineBreaks(kept: seq<string>, docClass: string, newline: bool)
    requires '\n' !in Text.Join(kept, ',') && '\n' !in docClass
    ensures newline ==> Text.IsLine(Rebuild(kept, docClass, newline), false)
    ensures !newline ==> '\n' !in Rebuild(kept, docClass, newline)
  {
    var body := "\\documentclass[" + Text.Join(kept, ',') + "]{" + docClass + "}";
    assert '\n' !in body;
    assert Rebuild(kept, docClass, newline) == body + (if newline then "\n" else "");
    if newline {
      var line := body + "\n";
      forall j | 0 <= j < |line| - 1 ensures line[j] != '\n' {
        assert line[j] == body[j];
      }
    } else {
      assert body + "" == body;
    }
  }

  /** A lazy group scan over characters that are neither `close` nor a line break reaches the next `close`. */
  lemma {:induction false} LazyCloseReaches(s: string, p: nat, q: nat, close: char)
    requires p <= q < |s| && s[q] == close
    requires forall j :: p <= j < q ==> s[j] != close && s[j] != '\n'
    ensures LazyClose(s, p, close) == Some(q)
    decreases q - p
  {
    if p < q {
      LazyCloseReaches(s, p + 1, q, close);
    }
  }

  lemma {:induction false} NoMatchBefore(s: string, i: nat, k: nat, open: char, close: char)
    requires i <= k <= |s|
    requires forall j :: i <= j < k ==> s[j] != open
    ensures FirstGroupFrom(s, i, open, close) == FirstGroupFrom(s, k, open, close)
    decreases k - i
  {
    if i < k {
      NoMatchBefore(s, i + 1, k, open, close);
    }
  }

  /** The leftmost `open(.+?)close` match of `pre + open + body + close + post` is `body`, when `pre` has no `open`. */
  lemma GroupAfter(pre: string, body: string, post: string, open: char, close: char)
    requires open !in pre && |body| > 0 && '\n' !in body && close !in body
    ensures FirstGroup(pre + [open] + body + [close] + post, open, close) == Some(body)
  {
    var s := pre + [open] + body + [close] + post;
    var i := |pre|;
    assert forall j :: 0 <= j < i ==> s[j] == pre[j];
    NoMatchBefore(s, 0, i, open, close);
    assert s[i] == open && s[i + 1] == body[0];
    var q := i + 1 + |body|;
    assert s[q] == close;
    assert forall j :: i + 2 <= j < q ==> s[j] == body[j - i - 1];
    LazyCloseReaches(s, i + 2, q, close);
    assert s[i + 1..q] == body;
  }

  /**
   * Reading back a rebuilt line finds the options it was built from and its
   * class, provided the joined options are nonempty and hold none of ']', '{'
   * or a line break, and the class holds neither '}' nor a line break.
   */
  lemma RebuiltLineReadsBack(options: seq<string>, docClass: string, newline: bool)
    requires forall i :: 0 <= i < |options| ==> ',' !in options[i]
    requires var joined := Text.Join(options, ','); |joined| > 0 && ']' !in joined && '{' !in joined && '\n' !in joined
    requires |docClass| > 0 && '}' !in docClass && '\n' !in docClass
    ensures Options(Rebuild(options, docClass, newline)) == Some(options)
    ensures DocumentClass(Rebuild(options, docClass, newline)) == Some(docClass)
  {
    var joined := Text.Join(options, ',');
    var tail := if newline then "\n" else "";
    var line := Rebuild(options, docClass, newline);
    assert line == "\\documentclass" + ['['] + joined + [']'] + ("{" + docClass + "}" + tail);
    GroupAfter("\\documentclass", joined, "{" + docClass + "}" + tail, '[', ']');
    assert line == ("\\documentclass[" + joined + "]") + ['{'] + docClass + ['}'] + tail;
    assert '{' !in "\\documentclass[" + joined + "]";
    GroupAfter("\\documentclass[" + joined + "]", docClass, tail, '{', '}');
    Text.SplitJoin(options, ',');
  }

  /**
   * A rewritten line reads back as the options that were kept, one " draft"
   * fewer, and the same class, provided the kept options, once joined, are
   * nonempty and hold neither ']' nor '{', and the class holds no '}'.
   */
  lemma RewriteReadsBack(line: string, newline: bool)
    requires RewriteClassLine(line, newline).Rewritten?
    requires var joined := Text.Join(Text.RemoveFirst(Options(line).value, DRAFT), ',');
             |joined| > 0 && ']' !in joined && '{' !in joined
    requires '}' !in DocumentClass(line).value
    ensures var rewritten := RewriteClassLine(line, newline).line;
            && Options(rewritten) == Some(Text.RemoveFirst(Options(line).value, DRAFT))
            && DocumentClass(rewritten) == DocumentClass(line)
            && multiset(Options(rewritten).value)[DRAFT] == multiset(Options(line).value)[DRAFT] - 1
  {
    var rewritten := RewriteClassLine(line, newline).line;
    var options := Options(line).value;
    var kept := Text.RemoveFirst(options, DRAFT);
    var docClass := DocumentClass(line).value;
    assert rewritten == Rebuild(kept, docClass, newline);
    var g := FirstGroup(line, '[', ']').value;
    assert options == Text.Split(g, ',');
    KeptOptions(g);
    RebuiltLineReadsBack(kept, docClass, newline);
    assert multiset(kept) == multiset(options) - multiset{DRAFT};
  }
}

=== FILE: enums.dfy ===
/** The enumerations shared by the project: severity levels and the keys of the shared configuration. */
module Enums {
  import opened Wrappers

  /** How bad an error is; a higher value is a more serious error (an IntEnum). */
  datatype SeverityLevels = Low | High | Critical {

    /** The integer value of the member. */
    function Value(): (v: int)
      ensures v % 10 == 0 && 10 <= v <= 30
    {
      match this
      case Low => 10
      case High => 20
      case Critical => 30
    }
  }

  /** `SeverityLevels(v)`: the member with value `v`, or None where Python raises ValueError. */
  function FromValue(v: int): (r: Option<SeverityLevels>)
    ensures r.Some? ==> r.value.Value() == v
    ensures r.None? <==> forall level: SeverityLevels :: level.Value() != v
  {
    if v == 10 then Some(Low)
    else if v == 20 then Some(High)
    else if v == 30 then Some(Critical)
    else None
  }

  /** The values are exactly 10, 20 and 30, strictly increasing with seriousness. */
  lemma SeverityValues()
    ensures Low.Value() == 10 && High.Value() == 20 && Critical.Value() == 30
    ensures Low.Value() < High.Value() < Critical.Value()
  {
  }

  /** Distinct members have distinct values, and looking a member up by its value finds it again. */
  lemma SeverityValueRoundTrip(level: SeverityLevels, other: SeverityLevels)
    ensures FromValue(level.Value()) == Some(level)
    ensures level.Value() == other.Value() ==> level == other
  {
  }

  /** The allowed keys of the shared configuration dictionary. */
  datatype ConfigDictKeys = NewName | FilePrefix | Verbose | Quiet {

    /** The string the key stands for in the dictionary. */
    function Value(): string {
      match this
      case NewName => "new_name"
      case FilePrefix => "file_prefix"
      case Verbose => "verbose"
      case Quiet => "quiet"
    }
  }

  /** Lower-case letters and underscores, not starting or ending with an underscore. */
  predicate IsSnakeCase(s: string) {
    && |s| > 0
    && s[0] != '_' && s[|s| - 1] != '_'
    && forall i :: 0 <= i < |s| ==> ('a' <= s[i] <= 'z' || s[i] == '_')
  }

  /** Every key value is snake_case, and no two keys share a value. */
  lemma ConfigKeysDistinctSnakeCase(key: ConfigDictKeys, other: ConfigDictKeys)
    ensures IsSnakeCase(key.Value())
    ensures key.Value() == other.Value() ==> key == other
  {
    match key
    case NewName =>
    case FilePrefix =>
    case Verbose =>
    case Quiet =>
  }
}

=== FILE: error_policy.dfy ===
/**
 * How the pipeline combines the errors its steps return: `_set_error`, which
 * keeps the more severe of two errors, and the severity dispatch of `execute`,
 * written as a left fold over the errors in the order the steps returned them.
 */
module ErrorPolicy {
  import opened Wrappers
  import opened Enums
  import opened Exceptions

  /**
   * `_set_error`: the current error is kept only when the new one is strictly
   * less severe than it; otherwise (no current error, a more severe new error,
   * or a tie) the new error is returned.
   */
  function SetError(current: Option<InternalException>, incoming: InternalException): (r: InternalException)
    ensures r == incoming || (current.Some? && r == current.value)
    ensures r.Ge(incoming) && (current.Some? ==> r.Ge(current.value))
    ensures current.Some? && incoming.Lt(current.value) ==> r == current.value
    ensures current.None? || current.value.Le(incoming) ==> r == incoming
  {
    if current.Some? && incoming.Lt(current.value) then current.value else incoming
  }

  /**
   * On a tie the result is only `==` to the current error (same severity); it
   * is the NEW error that is returned, so the current one is not kept as the
   * root cause when the two differ in message or cause.
   */
  lemma SetErrorOnTie(current: InternalException, incoming: InternalException)
    requires current.Eq(incoming)
    ensures SetError(Some(current), incoming).Eq(current)
    ensures SetError(Some(current), incoming) == incoming
  {
  }

  /** Two equally severe errors for which the current one is not the one returned. */
  lemma SetErrorReplacesEquallySevere()
    ensures exists current: InternalException, incoming: InternalException ::
              current.Eq(incoming) && SetError(Some(current), incoming) != current
  {
    var current := New("root cause", High);
    var incoming := New("later", High);
    assert |current.message| != |incoming.message|;
    assert SetError(Some(current), incoming) != current;
  }

  /** The error is present and has the given level. */
  predicate IsLevel(err: Option<InternalException>, level: SeverityLevels) {
    err.Some? && err.value.severityLevel == level.Value()
  }

  /** The error is one `execute` records in its aggregate: LOW or HIGH. */
  predicate Recorded(err: Option<InternalException>) {
    IsLevel(err, Low) || IsLevel(err, High)
  }

  /** The state of `execute` between two steps: still running with its (success, error) pair, or stopped by a CRITICAL error. */
  datatype RunState = Running(success: bool, aggregate: Option<InternalException>) | Aborted(cause: InternalException)

  /**
   * One pass through the `if error: match error.severity_level` block: LOW
   * merges the error into the aggregate, HIGH merges it and clears the success
   * flag, CRITICAL stops the run with that error, and any other severity is
   * logged and ignored.
   */
  function Absorb(st: RunState, err: Option<InternalException>): (r: RunState)
    ensures st.Aborted? ==> r == st
    ensures r.Aborted? <==> st.Aborted? || IsLevel(err, Critical)
    ensures st.Running? && IsLevel(err, Critical) ==> r == Aborted(err.value)
    ensures r.Running? ==> (r.success <==> st.success && !IsLevel(err, High))
    ensures st.Running? && Recorded(err) ==> r.aggregate == Some(SetError(st.aggregate, err.value))
    ensures !Recorded(err) && !IsLevel(err, Critical) ==> r == st
  {
    if st.Aborted? || err.None? then st
    else
      var e := err.value;
      if e.severityLevel == Low.Value() then Running(st.success, Some(SetError(st.aggregate, e)))
      else if e.severityLevel == High.Value() then Running(false, Some(SetError(st.aggregate, e)))
      else if e.severityLevel == Critical.Value() then Aborted(e)
      else st
  }

  /** The state after absorbing `errs` in order, from `rv_success = True`, `rv_error = None`. */
  function Fold(errs: seq<Option<InternalException>>): RunState
  {
    if |errs| == 0 then Running(true, None)
    else Absorb(Fold(errs[..|errs| - 1]), errs[|errs| - 1])
  }

  /** The same fold started from `st`, taking the errors front to back as the loop meets them. */
  function FoldFrom(st: RunState, errs: seq<Option<InternalException>>): RunState
    decreases |errs|
  {
    if |errs| == 0 then st else FoldFrom(Absorb(st, errs[0]), errs[1..])
  }

  /** Continuing from the state reached after `prior` is folding `prior` and `errs` together. */
  lemma {:induction false} FoldFromContinues(prior: seq<Option<InternalException>>, errs: seq<Option<InternalException>>)
    ensures FoldFrom(Fold(prior), errs) == Fold(prior + errs)
    decreases |errs|
  {
    if |errs| == 0 {
      assert prior + errs == prior;
    } else {
      var extended := prior + [errs[0]];
      assert extended[..|extended| - 1] == prior;
      FoldFromContinues(extended, errs[1..]);
      assert extended + errs[1..] == prior + errs;
    }
  }

  /** The pair `execute` returns from a state: the running pair, or `(False, error)` for the CRITICAL error. */
  function Result(st: RunState): (r: (bool, Option<InternalException>))
    ensures st.Aborted? ==> !r.0 && r.1 == Some(st.cause)
    ensures st.Running? ==> r == (st.success, st.aggregate)
  {
    match st
    case Running(success, aggregate) => (success, aggregate)
    case Aborted(cause) => (false, Some(cause))
  }

  /** `k` is the last recorded error of maximal severity. */
  predicate LastMostSevere(errs: seq<Option<InternalException>>, k: int) {
    && 0 <= k < |errs| && Recorded(errs[k])
    && (forall j :: 0 <= j < |errs| && Recorded(errs[j]) ==> errs[j].value.severityLevel <= errs[k].value.severityLevel)
    && (forall j :: k < j < |errs| && Recorded(errs[j]) ==> errs[j].value.severityLevel < errs[k].value.severityLevel)
  }

  /**
   * Without a CRITICAL error the run keeps going; it succeeds exactly when no
   * error is HIGH, and its error is None exactly when nothing was recorded.
   */
  lemma {:induction false} FoldWithoutCritical(errs: seq<Option<InternalException>>)
    requires forall i :: 0 <= i < |errs| ==> !IsLevel(errs[i], Critical)
    ensures Fold(errs).Running?
    ensures Fold(errs).success <==> forall i :: 0 <= i < |errs| ==> !IsLevel(errs[i], High)
    ensures Fold(errs).aggregate.None? <==> forall i :: 0 <= i < |errs| ==> !Recorded(errs[i])
  {
    if |errs| > 0 {
      var n := |errs| - 1;
      var prefix := errs[..n];
      assert forall i :: 0 <= i < n ==> prefix[i] == errs[i];
      FoldWithoutCritical(prefix);
      assert Fold(errs) == Absorb(Fold(prefix), errs[n]);
    }
  }

  /** Without a CRITICAL error, the error returned is the last of the most severe recorded errors. */
  lemma {:induction false} FoldKeepsLastMostSevere(errs: seq<Option<InternalException>>)
    requires forall i :: 0 <= i < |errs| ==> !IsLevel(errs[i], Critical)
    ensures Fold(errs).Running? && Fold(errs).aggregate.Some? ==>
              exists k :: LastMostSevere(errs, k) && Fold(errs).aggregate == errs[k]
  {
    if |errs| > 0 {
      var n := |errs| - 1;
      var prefix := errs[..n];
      var e := errs[n];
      assert forall i :: 0 <= i < n ==> prefix[i] == errs[i];
      FoldWithoutCritical(prefix);
      FoldKeepsLastMostSevere(prefix);
      var before := Fold(prefix);
      assert Fold(errs) == Absorb(before, e);
      if Recorded(e) {
        if before.aggregate.None? {
          assert LastMostSevere(errs, n);
        } else {
          var k :| LastMostSevere(prefix, k) && before.aggregate == prefix[k];
          if e.value.Lt(before.aggregate.value) {
            assert LastMostSevere(errs, k);
          } else {
            assert LastMostSevere(errs, n);
          }
        }
      } else if before.aggregate.Some? {
        var k :| LastMostSevere(prefix, k) && before.aggregate == prefix[k];
        assert LastMostSevere(errs, k);
      }
    }
  }

  /** Once stopped after the first `m` errors, the run stays stopped with the same error. */
  lemma {:induction false} AbortedStays(errs: seq<Option<InternalException>>, m: nat)
    requires m <= |errs| && Fold(errs[..m]).Aborted?
    ensures Fold(errs) == Fold(errs[..m])
    decreases |errs|
  {
    if m < |errs| {
      var n := |errs| - 1;
      assert errs[..n][..m] == errs[..m];
      AbortedStays(errs[..n], m);
    } else {
      assert errs[..m] == errs;
    }
  }

  /** The first CRITICAL error stops the run, and it is the error returned. */
  lemma FoldStopsAtFirstCritical(errs: seq<Option<InternalException>>, k: nat)
    requires k < |errs| && IsLevel(errs[k], Critical)
    requires forall j :: 0 <= j < k ==> !IsLevel(errs[j], Critical)
    ensures Fold(errs) == Aborted(errs[k].value)
    ensures Result(Fold(errs)) == (false, errs[k])
  {
    var upTo := errs[..k + 1];
    assert upTo[..k] == errs[..k];
    assert forall j :: 0 <= j < k ==> errs[..k][j] == errs[j];
    FoldWithoutCritical(errs[..k]);
    assert Fold(upTo) == Absorb(Fold(errs[..k]), errs[k]);
    AbortedStays(errs, k + 1);
  }

  /** The run is stopped exactly when some error is CRITICAL. */
  lemma FoldAbortsIffCritical(errs: seq<Option<InternalException>>)
    ensures Fold(errs).Aborted? <==> exists i :: 0 <= i < |errs| && IsLevel(errs[i], Critical)
  {
    if exists i :: 0 <= i < |errs| && IsLevel(errs[i], Critical) {
      var k := FirstCritical(errs);
      FoldStopsAtFirstCritical(errs, k);
    } else {
      FoldWithoutCritical(errs);
    }
  }

  /** The position of the first CRITICAL error. */
  function FirstCritical(errs: seq<Option<InternalException>>): (k: nat)
    requires exists i :: 0 <= i < |errs| && IsLevel(errs[i], Critical)
    ensures k < |errs| && IsLevel(errs[k], Critical)
    ensures forall j :: 0 <= j < k ==> !IsLevel(errs[j], Critical)
    decreases |errs|
  {
    if IsLevel(errs[0], Critical) then 0
    else
      assert exists i :: 0 <= i < |errs[1..]| && IsLevel(errs[1..][i], Critical) by {
        var i :| 0 <= i < |errs| && IsLevel(errs[i], Critical);
        assert errs[1..][i - 1] == errs[i];
      }
      1 + FirstCritical(errs[1..])
  }

  /**
   * What `execute` reports for the errors of a complete run: success exactly
   * when no error was HIGH or CRITICAL, and the error it reports with success
   * is at most a LOW one; a run that was not stopped never reports a CRITICAL
   * error.
   */
  lemma ReportedResult(errs: seq<Option<InternalException>>)
    ensures Result(Fold(errs)).0 <==> forall i :: 0 <= i < |errs| ==> !IsLevel(errs[i], High) && !IsLevel(errs[i], Critical)
    ensures Result(Fold(errs)).0 && Result(Fold(errs)).1.Some? ==> IsLevel(Result(Fold(errs)).1, Low)
    ensures Fold(errs).Running? ==> !IsLevel(Result(Fold(errs)).1, Critical)
    ensures (forall i :: 0 <= i < |errs| ==> errs[i].None?) ==> Result(Fold(errs)) == (true, None)
  {
    FoldAbortsIffCritical(errs);
    if Fold(errs).Running? {
      FoldWithoutCritical(errs);
      FoldKeepsLastMostSevere(errs);
      if Fold(errs).aggregate.Some? {
        var k :| LastMostSevere(errs, k) && Fold(errs).aggregate == errs[k];
      }
    }
  }
}

=== FILE: exceptions.dfy ===
/** The error value steps hand to the pipeline. */
module Exceptions {
  import opened Wrappers
  import opened Enums
  import Text

  /**
   * An immutable error record. `severityLevel` is the integer value of the level
   * the error was built with (what the `severity_level` property returns); it is
   * a plain int so that an error whose level is none of the three known values
   * can be represented. `errorType` is the text of the optional cause.
   */
  datatype InternalException = InternalException(message: string, severityLevel: int, errorType: Option<string>) {

    /** The name shown in front of the severity: the cause, or the class name when there is none. */
    function Label(): string {
      errorType.GetOr("InternalException")
    }

    /** `"<cause or InternalException> (<severity>) | <message>"`. */
    function ToString(): (s: string)
      ensures Label() + " (" <= s
      ensures Text.EndsWith(s, ") | " + message)
    {
      var s := Label() + " (" + Text.IntToString(severityLevel) + ") | " + message;
      assert s == (Label() + " (" + Text.IntToString(severityLevel)) + (") | " + message);
      s
    }

    /** `==`: the severities are equal; message and cause are not compared. */
    predicate Eq(other: InternalException) {
      severityLevel == other.severityLevel
    }

    /** `<` on the severities. */
    predicate Lt(other: InternalException) {
      severityLevel < other.severityLevel
    }

    /** `<=` on the severities. */
    predicate Le(other: InternalException) {
      severityLevel <= other.severityLevel
    }

    /** `>=` on the severities. */
    predicate Ge(other: InternalException) {
      severityLevel >= other.severityLevel
    }
  }

  /** The constructor: message and cause are stored unchanged, the cause defaults to None. */
  function New(message: string, level: SeverityLevels, errorType: Option<string> := None): (e: InternalException)
    ensures e.message == message && e.errorType == errorType
    ensures e.severityLevel == level.Value()
    ensures FromValue(e.severityLevel) == Some(level)
  {
    InternalException(message, level.Value(), errorType)
  }

  /** Building an error without a cause leaves the cause empty, and the rendered text starts with the class name. */
  lemma NewWithoutCause(message: string, level: SeverityLevels)
    ensures New(message, level).errorType == None
    ensures "InternalException (" <= New(message, level).ToString()
  {
  }

  /** The severity printed between the parentheses reads back as the error's severity. */
  lemma SeverityReadsBack(e: InternalException)
    ensures var s := e.ToString();
            |e.Label()| + 2 <= |s| - |e.message| - 4 &&
            Text.ParseInt(s[|e.Label()| + 2 .. |s| - |e.message| - 4]) == Some(e.severityLevel)
  {
    var digits := Text.IntToString(e.severityLevel);
    var s := e.ToString();
    assert s == e.Label() + " (" + digits + ") | " + e.message;
    assert s[|e.Label()| + 2 .. |s| - |e.message| - 4] == digits;
    Text.IntRoundTrip(e.severityLevel);
  }

  /** Two errors of the same severity are equal whatever their messages and causes. */
  lemma EqIgnoresMessageAndCause(e: InternalException, message: string, errorType: Option<string>)
    ensures e.Eq(InternalException(message, e.severityLevel, errorType))
    ensures e != InternalException(e.message + "!", e.severityLevel, errorType)
  {
    assert |e.message + "!"| != |e.message|;
  }

  /**
   * The comparisons form a total preorder whose equivalence is `==`:
   * exactly one of `a < b`, `a == b`, `b < a` holds; `<=` is `<` or `==`;
   * `>=` is not `<`; `<` is transitive and `==` is an equivalence.
   */
  lemma ComparisonsAreOrdered(a: InternalException, b: InternalException, c: InternalException)
    ensures (a.Lt(b) && !a.Eq(b) && !b.Lt(a)) || (!a.Lt(b) && a.Eq(b) && !b.Lt(a)) || (!a.Lt(b) && !a.Eq(b) && b.Lt(a))
    ensures a.Le(b) <==> a.Lt(b) || a.Eq(b)
    ensures a.Ge(b) <==> !a.Lt(b)
    ensures a.Ge(b) <==> b.Le(a)
    ensures a.Lt(b) && b.Lt(c) ==> a.Lt(c)
    ensures a.Eq(a) && (a.Eq(b) ==> b.Eq(a)) && (a.Eq(b) && b.Eq(c) ==> a.Eq(c))
  {
  }
}

=== FILE: legacy_enums.dfy ===
/** The older copy of the severity enumeration kept next to the older operations. */
module LegacyEnums {
  import Enums

  /** The same three levels, as an IntEnum of its own. */
  datatype SeverityLevels = Low | High | Critical {

    function Value(): int {
      match this
      case Low => 10
      case High => 20
      case Critical => 30
    }
  }

  /** The member of the current enumeration with the same name. */
  function Current(level: SeverityLevels): Enums.SeverityLevels {
    match level
    case Low => Enums.Low
    case High => Enums.High
    case Critical => Enums.Critical
  }

  /** LOW = 10, HIGH = 20, CRITICAL = 30, so LOW < HIGH < CRITICAL, the same values as the current enumeration. */
  lemma LegacySeverityValues(level: SeverityLevels)
    ensures Low.Value() == 10 && High.Value() == 20 && Critical.Value() == 30
    ensures Low.Value() < High.Value() < Critical.Value()
    ensures level.Value() == Current(level).Value()
  {
  }
}

=== FILE: legacy_exceptions.dfy ===
/** The older copy of the error record, without comparison operators. */
module LegacyExceptions {
  import opened Wrappers
  import LegacyEnums
  import Text
  import Exceptions

  /** Same fields as the current record: message, the integer severity, the optional cause. */
  datatype InternalException = InternalException(message: string, severityLevel: int, errorType: Option<string>) {

    /** `"<cause or InternalException> (<severity>) | <message>"`. */
    function ToString(): (s: string)
      ensures errorType.None? ==> "InternalException (" <= s
      ensures errorType.Some? ==> errorType.value + " (" <= s
      ensures Text.EndsWith(s, ") | " + message)
    {
      var shown := if errorType.None? then "InternalException" else errorType.value;
      var s := shown + " (" + Text.IntToString(severityLevel) + ") | " + message;
      assert s == (shown + " (" + Text.IntToString(severityLevel)) + (") | " + message);
      s
    }
  }

  /** The constructor: message and cause stored unchanged, cause defaulting to None, severity the level's value. */
  function New(message: string, level: LegacyEnums.SeverityLevels, errorType: Option<string> := None): (e: InternalException)
    ensures e.message == message && e.errorType == errorType
    ensures e.severityLevel == level.Value()
  {
    InternalException(message, level.Value(), errorType)
  }

  /** The older record renders exactly as the current one with the same fields. */
  lemma RendersLikeCurrent(e: InternalException)
    ensures e.ToString() == Exceptions.InternalException(e.message, e.severityLevel, e.errorType).ToString()
  {
  }
}

=== FILE: legacy_operations.dfy ===
/**
 * The older draft of the steps, kept in its own sub-package next to the older
 * error record. It differs from the current steps in three places: the
 * rebuilt class line has no line break, the programs always get their quiet
 * flag, and the bibliography step does not look for a .bib file. Its
 * clean-up step is an empty stub.
 */
module LegacyOperations {
  import opened Wrappers
  import opened Workspace
  import LegacyEnums
  import LegacyExceptions
  import Exceptions
  import Text
  import ClassLine
  import Operations

  /** What an older step did, with the older error record. */
  datatype Step = Ran(state: State, success: bool, error: Option<LegacyExceptions.InternalException>) | Threw(reason: string)

  predicate FailsWith(r: Step, state: State, level: LegacyEnums.SeverityLevels) {
    r.Ran? && r.state == state && !r.success && r.error.Some? && r.error.value.severityLevel == level.Value()
  }

  predicate Succeeds(r: Step) {
    r.Ran? && r.success && r.error.None?
  }

  function Fail(state: State, message: string, level: LegacyEnums.SeverityLevels): (r: Step)
    ensures FailsWith(r, state, level)
  {
    Ran(state, false, Some(LegacyExceptions.New(message, level)))
  }

  /** The older step and the current one leave the same state and report the same success and the same error fields. */
  predicate SameAs(r: Step, current: Effect<State>) {
    match r
    case Threw(_) => current.Raised?
    case Ran(state, success, error) =>
      && current.Done? && current.state == state && current.success == success
      && (error.None? <==> current.error.None?)
      && (error.Some? ==> current.error.value == Exceptions.InternalException(error.value.message, error.value.severityLevel, error.value.errorType))
  }

  /** copy_latex_file: CRITICAL without `name.tex`; otherwise the prefixed copy and `new_name`. */
  function CopyLatexFile(fileName: string, config: Config, dir: Dir): (r: Step)
    ensures fileName + ".tex" !in dir.files ==> FailsWith(r, State(config, dir), LegacyEnums.Critical)
    ensures fileName + ".tex" in dir.files ==>
              && Succeeds(r)
              && r.state.config.newName == Some(config.filePrefix + "_" + fileName)
              && r.state.dir.files.Keys == dir.files.Keys + {config.filePrefix + "_" + fileName + ".tex"}
              && r.state.dir.files[config.filePrefix + "_" + fileName + ".tex"] == dir.files[fileName + ".tex"]
  {
    var tex := fileName + ".tex";
    if tex !in dir.files then
      Fail(State(config, dir), "The file " + tex + " is not in the directory.", LegacyEnums.Critical)
    else
      var newName := config.filePrefix + "_" + fileName;
      Ran(State(config.(newName := Some(newName)), dir.(files := dir.files[newName + ".tex" := dir.files[tex]])), true, None)
  }

  /** The older copy step behaves exactly like the current one. */
  lemma CopyAsCurrent(fileName: string, config: Config, dir: Dir)
    ensures SameAs(CopyLatexFile(fileName, config, dir), Operations.CopyLatexFile(fileName, config, dir))
  {
  }

  /**
   * remove_draft_option as first written: the same checks as the current step,
   * but the rebuilt class line is written without its line break.
   */
  function RemoveDraftOption(fileName: string, config: Config, dir: Dir): (r: Step)
    ensures fileName + ".tex" !in dir.files ==> FailsWith(r, State(config, dir), LegacyEnums.Critical)
    ensures fileName + ".tex" in dir.files ==>
              var lines := Text.Lines(dir.files[fileName + ".tex"]);
              && (r.Threw? <==> |lines| == 0 || ClassLine.RewriteClassLine(lines[0], false).Malformed?)
              && (|lines| > 0 && ClassLine.Options(lines[0]).Some? && ClassLine.DRAFT !in ClassLine.Options(lines[0]).value ==>
                    FailsWith(r, State(config, dir), LegacyEnums.Low))
              && (Succeeds(r) ==>
                    r.state == State(config, dir.(files := dir.files[fileName + ".tex" :=
                      Text.Concat([ClassLine.RewriteClassLine(lines[0], false).line] + lines[1..])])))
    ensures fileName + ".tex" in dir.files && |Text.Lines(dir.files[fileName + ".tex"])| > 0
            && ClassLine.RewriteClassLine(Text.Lines(dir.files[fileName + ".tex"])[0], false).Rewritten? ==>
              Succeeds(r)
  {
    var tex := fileName + ".tex";
    if tex !in dir.files then
      Fail(State(config, dir), "The file " + tex + " is not found in the current working directory", LegacyEnums.Critical)
    else
      var lines := Text.Lines(dir.files[tex]);
      if |lines| == 0 then Threw("IndexError: list index out of range")
      else match ClassLine.RewriteClassLine(lines[0], false)
        case Malformed(reason) => Threw(reason)
        case NoDraft => Fail(State(config, dir), "Draft option is not in the class definition", LegacyEnums.Low)
        case Rewritten(line) => Ran(State(config, dir.(files := dir.files[tex := Text.Concat([line] + lines[1..])])), true, None)
  }

  /**
   * The older rewrite joins the class line to the line after it: a file of
   * n >= 2 lines is written back with n - 1 lines, the first being the
   * rebuilt class line followed by the old second line.
   */
  lemma {:induction false} RemoveDraftMergesLines(fileName: string, config: Config, dir: Dir)
    requires fileName + ".tex" in dir.files
    requires |Text.Lines(dir.files[fileName + ".tex"])| >= 2
    requires Succeeds(RemoveDraftOption(fileName, config, dir))
    ensures var lines := Text.Lines(dir.files[fileName + ".tex"]);
            var after := Text.Lines(RemoveDraftOption(fileName, config, dir).state.dir.files[fileName + ".tex"]);
            && |after| == |lines| - 1
            && after[0] == ClassLine.RewriteClassLine(lines[0], false).line + lines[1]
            && after[1..] == lines[2..]
  {
    var text := dir.files[fileName + ".tex"];
    var lines := Text.Lines(text);
    var line := ClassLine.RewriteClassLine(lines[0], false).line;
    var rest := Text.Concat(lines[1..]);
    assert Text.Concat([line] + lines[1..]) == line + rest;
    Text.LinesOfTail(text);
    assert Text.Lines(rest) == lines[1..];
    assert |line| > 0 by {
      assert line == ClassLine.Rebuild(Text.RemoveFirst(ClassLine.Options(lines[0]).value, ClassLine.DRAFT),
                                       ClassLine.DocumentClass(lines[0]).value, false);
    }
    Text.LinesAfterPartialLine(line, rest);
  }

  /** The current step, on the same input, keeps the number of lines where the older one loses one. */
  lemma RemoveDraftDiffersFromCurrent(fileName: string, config: Config, dir: Dir)
    requires fileName + ".tex" in dir.files
    requires |Text.Lines(dir.files[fileName + ".tex"])| >= 2
    requires Succeeds(RemoveDraftOption(fileName, config, dir))
    ensures var current := Operations.RemoveDraftOption(fileName, config, dir);
            && current.Done? && current.success
            && |Text.Lines(current.state.dir.files[fileName + ".tex"])| == |Text.Lines(dir.files[fileName + ".tex"])|
            && current.state.dir.files[fileName + ".tex"] != RemoveDraftOption(fileName, config, dir).state.dir.files[fileName + ".tex"]
  {
    RemoveDraftMergesLines(fileName, config, dir);
    var lines := Text.Lines(dir.files[fileName + ".tex"]);
    assert ClassLine.RewriteClassLine(lines[0], true).Rewritten?;
  }

  /** compile_latex_file: CRITICAL without `name.tex`; otherwise pdflatex runs with `-quiet`, whatever the configuration says. */
  function CompileLatexFile(fileName: string, config: Config, dir: Dir, tool: Tool): (r: Step)
    ensures fileName + ".tex" !in dir.files ==> FailsWith(r, State(config, dir), LegacyEnums.Critical)
    ensures fileName + ".tex" in dir.files ==>
              && Succeeds(r) && r.state.config == config
              && r.state.dir == tool(["pdflatex", "-quiet", fileName + ".tex"], dir)
  {
    var tex := fileName + ".tex";
    if tex !in dir.files then
      Fail(State(config, dir), "The file " + tex + " is not found in the current working directory", LegacyEnums.Critical)
    else
      Ran(State(config, tool(["pdflatex", "-quiet", tex], dir)), true, None)
  }

  /** The older compile step ignores `verbose`; it agrees with the current one exactly in quiet mode. */
  lemma CompileIgnoresVerbose(fileName: string, config: Config, dir: Dir, tool: Tool)
    ensures fileName + ".tex" in dir.files ==>
              CompileLatexFile(fileName, config, dir, tool).state.dir == CompileLatexFile(fileName, config.(verbose := !config.verbose), dir, tool).state.dir
    ensures !config.verbose ==> SameAs(CompileLatexFile(fileName, config, dir, tool), Operations.CompileLatexFile(fileName, config, dir, tool))
  {
  }

  /** create_bibliograpyh as first written: HIGH without `name.bcf`; no search for a .bib file; biber always gets `-q`. */
  function CreateBibliography(fileName: string, config: Config, dir: Dir, tool: Tool): (r: Step)
    ensures fileName + ".bcf" !in dir.files ==> FailsWith(r, State(config, dir), LegacyEnums.High)
    ensures fileName + ".bcf" in dir.files ==>
              && Succeeds(r) && r.state.config == config
              && r.state.dir == tool(["biber", "-q", fileName], dir)
  {
    if fileName + ".bcf" !in dir.files then
      Fail(State(config, dir), "The file " + fileName + ".bcf has not been created. Bibliography can not be created.", LegacyEnums.High)
    else
      Ran(State(config, tool(["biber", "-q", fileName], dir)), true, None)
  }

  /** Without any .bib file the older step still runs biber where the current one reports HIGH. */
  lemma BibliographyWithoutBibFile(fileName: string, config: Config, dir: Dir, tool: Tool)
    requires fileName + ".bcf" in dir.files && !Operations.HasBibFile(dir)
    ensures Succeeds(CreateBibliography(fileName, config, dir, tool))
    ensures Operations.BibliographyOutcome(fileName, config, dir, tool).Done?
    ensures !Operations.BibliographyOutcome(fileName, config, dir, tool).success
  {
  }

  /** create_glossary: `name.glo`, `name.ist`, `name.aux` checked in that order, the first missing one giving HIGH; makeglossaries always gets `-q`. */
  function CreateGlossary(fileName: string, config: Config, dir: Dir, tool: Tool): (r: Step)
    ensures fileName + ".glo" !in dir.files ==> FailsWith(r, State(config, dir), LegacyEnums.High)
    ensures fileName + ".glo" in dir.files && fileName + ".ist" !in dir.files ==> FailsWith(r, State(config, dir), LegacyEnums.High)
    ensures fileName + ".glo" in dir.files && fileName + ".ist" in dir.files && fileName + ".aux" !in dir.files ==>
              FailsWith(r, State(config, dir), LegacyEnums.High)
    ensures (fileName + ".glo" in dir.files && fileName + ".ist" in dir.files && fileName + ".aux" in dir.files) <==> Succeeds(r)
    ensures Succeeds(r) ==> r.state == State(config, tool(["makeglossaries", "-q", fileName], dir))
  {
    if fileName + ".glo" !in dir.files then Fail(State(config, dir), Operations.GlossaryMessage(fileName + ".glo"), LegacyEnums.High)
    else if fileName + ".ist" !in dir.files then Fail(State(config, dir), Operations.GlossaryMessage(fileName + ".ist"), LegacyEnums.High)
    else if fileName + ".aux" !in dir.files then Fail(State(config, dir), Operations.GlossaryMessage(fileName + ".aux"), LegacyEnums.High)
    else Ran(State(config, tool(["makeglossaries", "-q", fileName], dir)), true, None)
  }

  /** In quiet mode the older glossary step is the current one. */
  lemma GlossaryAsCurrentWhenQuiet(fileName: string, config: Config, dir: Dir, tool: Tool)
    requires !config.verbose
    ensures SameAs(CreateGlossary(fileName, config, dir, tool), Operations.CreateGlossary(fileName, config, dir, tool))
  {
  }
}

=== FILE: operations.dfy ===
/**
 * The steps of the pipeline over an abstract working directory. Each step
 * takes the name of the working file (without extension), the shared
 * configuration and the directory, and returns the new configuration and
 * directory with the pair (success, error) the step returns, or the exception
 * it lets escape.
 */
module Operations {
  import opened Wrappers
  import opened Enums
  import opened Exceptions
  import opened Workspace
  import Text
  import ClassLine

  const DEPLOY := "DEPLOY"

  /**
   * The argument list of an external program: `[program, quietFlag, target]`,
   * from which the first `quietFlag` is popped in verbose mode.
   */
  function Arguments(program: string, quietFlag: string, target: string, verbose: bool): (args: seq<string>)
    ensures !verbose ==> args == [program, quietFlag, target]
    ensures verbose && program != quietFlag ==> args == [program, target]
    ensures verbose ==> multiset(args) == multiset([program, quietFlag, target]) - multiset{quietFlag}
  {
    var full := [program, quietFlag, target];
    if verbose then Text.RemoveFirst(full, quietFlag) else full
  }

  /** The quiet flag is passed exactly when the configuration is not verbose (the program's own name is never a flag). */
  lemma QuietExactlyWhenNotVerbose(program: string, quietFlag: string, target: string, verbose: bool)
    requires program != quietFlag && target != quietFlag
    ensures quietFlag in Arguments(program, quietFlag, target, verbose) <==> !verbose
    ensures target == Arguments(program, quietFlag, target, verbose)[|Arguments(program, quietFlag, target, verbose)| - 1]
  {
    var args := Arguments(program, quietFlag, target, verbose);
    if verbose {
      assert args == [program, target];
    }
  }

  // ---------------------------------------------------------------------------
  // Preparation of the working file
  // ---------------------------------------------------------------------------

  /**
   * copy_latex_file: without `name.tex`, CRITICAL and nothing changes;
   * otherwise `prefix_name.tex` is written with the content of `name.tex`, the
   * original is kept, and `new_name` is set to `prefix_name`.
   */
  function CopyLatexFile(fileName: string, config: Config, dir: Dir): (r: Effect<State>)
    ensures fileName + ".tex" !in dir.files ==> FailsWith(r, State(config, dir), Critical)
    ensures fileName + ".tex" in dir.files ==>
              && Succeeds(r)
              && r.state.config == config.(newName := Some(config.filePrefix + "_" + fileName))
              && var copy := r.state.config.newName.value + ".tex";
                 && r.state.dir.files.Keys == dir.files.Keys + {copy}
                 && r.state.dir.files[copy] == dir.files[fileName + ".tex"]
                 && r.state.dir.files[fileName + ".tex"] == dir.files[fileName + ".tex"]
                 && (forall f :: f in dir.files && f != copy ==> r.state.dir.files[f] == dir.files[f])
                 && r.state.dir.deploy == dir.deploy && r.state.dir.nested == dir.nested
  {
    var tex := fileName + ".tex";
    if tex !in dir.files then
      Fail(State(config, dir), "The file " + tex + " is not in the directory.", Critical)
    else
      var newName := config.filePrefix + "_" + fileName;
      assert |newName + ".tex"| > |tex|;
      Done(State(config.(newName := Some(newName)), dir.(files := dir.files[newName + ".tex" := dir.files[tex]])), true, None)
  }

  /**
   * remove_draft_option: without `name.tex`, CRITICAL; an empty file or a
   * malformed class line raises IndexError; without a " draft" option, LOW
   * and the file is left alone; otherwise the first line is replaced by the
   * rebuilt class line, which ends in a line break.
   */
  function RemoveDraftOption(fileName: string, config: Config, dir: Dir): (r: Effect<State>)
    ensures fileName + ".tex" !in dir.files ==> FailsWith(r, State(config, dir), Critical)
    ensures fileName + ".tex" in dir.files ==>
              var lines := Text.Lines(dir.files[fileName + ".tex"]);
              && (r.Raised? <==> |lines| == 0 || ClassLine.RewriteClassLine(lines[0], true).Malformed?)
              && (|lines| > 0 && ClassLine.Options(lines[0]).Some? && ClassLine.DRAFT !in ClassLine.Options(lines[0]).value ==>
                    FailsWith(r, State(config, dir), Low))
              && (r.Done? && r.success ==>
                    && r.error.None? && r.state.config == config && fileName + ".tex" in r.state.dir.files
                    && r.state.dir == dir.(files := dir.files[fileName + ".tex" := r.state.dir.files[fileName + ".tex"]])
                    && var after := Text.Lines(r.state.dir.files[fileName + ".tex"]);
                       && |after| == |lines|
                       && ClassLine.RewriteClassLine(lines[0], true) == ClassLine.Rewritten(after[0])
                       && after[1..] == lines[1..])
    ensures fileName + ".tex" in dir.files && |Text.Lines(dir.files[fileName + ".tex"])| > 0
            && ClassLine.RewriteClassLine(Text.Lines(dir.files[fileName + ".tex"])[0], true).Rewritten? ==>
              Succeeds(r)
    ensures r.Done? ==> r.success || FailsWith(r, State(config, dir), Critical) || FailsWith(r, State(config, dir), Low)
  {
    var tex := fileName + ".tex";
    if tex !in dir.files then
      Fail(State(config, dir), "The file " + tex + " is not found in the current working directory", Critical)
    else
      var lines := Text.Lines(dir.files[tex]);
      if |lines| == 0 then Raised("IndexError: list index out of range")
      else match ClassLine.RewriteClassLine(lines[0], true)
        case Malformed(reason) => Raised(reason)
        case NoDraft => Fail(State(config, dir), "Draft option is not in the class definition", Low)
        case Rewritten(line) =>
          var written := Text.Concat([line] + lines[1..]);
          RewrittenFileKeepsLines(dir.files[tex], line);
          Done(State(config, dir.(files := dir.files[tex := written])), true, None)
  }

  /** Writing back the lines of a file with the first one replaced by a complete line changes that line only. */
  lemma RewrittenFileKeepsLines(text: string, line: string)
    requires |Text.Lines(text)| > 0 && Text.IsLine(line, false)
    ensures var lines := Text.Lines(text);
            Text.Lines(Text.Concat([line] + lines[1..])) == [line] + lines[1..]
  {
    var lines := Text.Lines(text);
    assert Text.Concat([line] + lines[1..]) == line + Text.Concat(lines[1..]);
    Text.LinesAfterLine(line, Text.Concat(lines[1..]));
    Text.LinesOfTail(text);
  }

  // ---------------------------------------------------------------------------
  // Compilation and generated artifacts
  // ---------------------------------------------------------------------------

  /** compile_latex_file: without `name.tex`, CRITICAL; otherwise pdflatex runs on it and the step succeeds. */
  function CompileLatexFile(fileName: string, config: Config, dir: Dir, tool: Tool): (r: Effect<State>)
    ensures fileName + ".tex" !in dir.files ==> FailsWith(r, State(config, dir), Critical)
    ensures fileName + ".tex" in dir.files ==>
              && Succeeds(r) && r.state.config == config
              && r.state.dir == tool(Arguments("pdflatex", "-quiet", fileName + ".tex", config.verbose), dir)
  {
    var tex := fileName + ".tex";
    if tex !in dir.files then
      Fail(State(config, dir), "The file " + tex + " is not found in the current working directory", Critical)
    else
      Done(State(config, tool(Arguments("pdflatex", "-quiet", tex, config.verbose), dir)), true, None)
  }

  /** The text after the last '.' of a file name (`f.split(".")[-1]`). */
  function Extension(f: string): string {
    var parts := Text.Split(f, '.');
    parts[|parts| - 1]
  }

  /** A file name with a '.' whose last part is "bib". */
  predicate IsBibFile(f: string) {
    '.' in f && Extension(f) == "bib"
  }

  /** Every file name `os.walk` reports: the working directory, DEPLOY and the other sub-directories. */
  function AllFileNames(dir: Dir): set<string> {
    dir.files.Keys + (if dir.deploy.Some? then dir.deploy.value.Keys else {}) + dir.nested
  }

  predicate HasBibFile(dir: Dir) {
    exists f :: f in AllFileNames(dir) && IsBibFile(f)
  }

  /**
   * _is_bibfile_present: collect the extension of every file name that has a
   * '.', then look for "bib" among them.
   */
  method IsBibfilePresent(dir: Dir) returns (present: bool)
    ensures present <==> HasBibFile(dir)
  {
    var fileTypes: seq<string> := [];
    var remaining := AllFileNames(dir);
    while remaining != {}
      invariant remaining <= AllFileNames(dir)
      invariant "bib" in fileTypes <==> exists f :: f in AllFileNames(dir) - remaining && IsBibFile(f)
      decreases |remaining|
    {
      var f :| f in remaining;
      ghost var seen := AllFileNames(dir) - remaining;
      assert AllFileNames(dir) - (remaining - {f}) == seen + {f};
      if '.' in f {
        fileTypes := fileTypes + [Extension(f)];
      }
      assert "bib" in fileTypes <==> (exists g :: g in seen && IsBibFile(g)) || IsBibFile(f);
      remaining := remaining - {f};
    }
    present := "bib" in fileTypes;
  }

  /**
   * What create_bibliograpyh does: HIGH without `name.bcf`, then HIGH without
   * any .bib file, and otherwise biber runs on the file name.
   */
  function BibliographyOutcome(fileName: string, config: Config, dir: Dir, tool: Tool): (r: Effect<State>)
    ensures fileName + ".bcf" !in dir.files ==> FailsWith(r, State(config, dir), High)
    ensures fileName + ".bcf" in dir.files && !HasBibFile(dir) ==> FailsWith(r, State(config, dir), High)
    ensures fileName + ".bcf" in dir.files && HasBibFile(dir) ==>
              && Succeeds(r) && r.state.config == config
              && r.state.dir == tool(Arguments("biber", "-q", fileName, config.verbose), dir)
  {
    if fileName + ".bcf" !in dir.files then
      Fail(State(config, dir), "The file " + fileName + ".bcf has not been created. Bibliography can not be created.", High)
    else if !HasBibFile(dir) then
      Fail(State(config, dir), "There is no bibliography file in the current project. Cant create bibliography.", High)
    else
      Done(State(config, tool(Arguments("biber", "-q", fileName, config.verbose), dir)), true, None)
  }

  /** create_bibliograpyh. */
  method CreateBibliography(fileName: string, config: Config, dir: Dir, tool: Tool) returns (r: Effect<State>)
    ensures r == BibliographyOutcome(fileName, config, dir, tool)
  {
    if fileName + ".bcf" !in dir.files {
      return Fail(State(config, dir), "The file " + fileName + ".bcf has not been created. Bibliography can not be created.", High);
    }
    var present := IsBibfilePresent(dir);
    if !present {
      return Fail(State(config, dir), "There is no bibliography file in the current project. Cant create bibliography.", High);
    }
    var args := Arguments("biber", "-q", fileName, config.verbose);
    return Done(State(config, tool(args, dir)), true, None);
  }

  /**
   * create_glossary: the first missing file among `name.glo`, `name.ist`,
   * `name.aux` gives HIGH; with all three, makeglossaries runs.
   */
  function CreateGlossary(fileName: string, config: Config, dir: Dir, tool: Tool): (r: Effect<State>)
    ensures fileName + ".glo" !in dir.files ==> FailsWith(r, State(config, dir), High) && r.error.value.message == GlossaryMessage(fileName + ".glo")
    ensures fileName + ".glo" in dir.files && fileName + ".ist" !in dir.files ==>
              FailsWith(r, State(config, dir), High) && r.error.value.message == GlossaryMessage(fileName + ".ist")
    ensures fileName + ".glo" in dir.files && fileName + ".ist" in dir.files && fileName + ".aux" !in dir.files ==>
              FailsWith(r, State(config, dir), High) && r.error.value.message == GlossaryMessage(fileName + ".aux")
    ensures (fileName + ".glo" in dir.files && fileName + ".ist" in dir.files && fileName + ".aux" in dir.files) <==> Succeeds(r)
    ensures Succeeds(r) ==> r.state == State(config, tool(Arguments("makeglossaries", "-q", fileName, config.verbose), dir))
  {
    if fileName + ".glo" !in dir.files then Fail(State(config, dir), GlossaryMessage(fileName + ".glo"), High)
    else if fileName + ".ist" !in dir.files then Fail(State(config, dir), GlossaryMessage(fileName + ".ist"), High)
    else if fileName + ".aux" !in dir.files then Fail(State(config, dir), GlossaryMessage(fileName + ".aux"), High)
    else Done(State(config, tool(Arguments("makeglossaries", "-q", fileName, config.verbose), dir)), true, None)
  }

  function GlossaryMessage(missing: string): string {
    "The file " + missing + " has not been created. Glossary can not be created."
  }

  // ---------------------------------------------------------------------------
  // Tear down
  // ---------------------------------------------------------------------------

  /** The name the pdf gets in DEPLOY: `new_file_name`, or `<stamp>_<name>` when it is None or empty. */
  function DeployName(fileName: string, newFileName: Option<string>, stamp: string): (target: string)
    ensures newFileName.Some? && newFileName.value != "" ==> target == newFileName.value
    ensures newFileName.None? || newFileName.value == "" ==> target == stamp + "_" + fileName
  {
    if newFileName.None? || newFileName.value == "" then stamp + "_" + fileName else newFileName.value
  }

  /**
   * What _move_pdf_file does. DEPLOY is created unless it already exists
   * (LOW, and the success flag drops). Then the pdf is moved into DEPLOY and
   * renamed. `shutil.move` into a directory first refuses a target that
   * already exists, and raises before it looks at the pdf; otherwise a missing
   * pdf gives CRITICAL, which replaces a LOW, and a plain file called DEPLOY
   * makes the rename into it raise.
   */
  function MoveOutcome(fileName: string, newFileName: Option<string>, stamp: string, dir: Dir): (r: Effect<Dir>)
    ensures var pdf := fileName + ".pdf";
            r.Raised? <==> (dir.deploy.Some? && pdf in dir.deploy.value) || (pdf in dir.files && DEPLOY in dir.files)
    ensures var pdf := fileName + ".pdf";
            pdf !in dir.files && !(dir.deploy.Some? && pdf in dir.deploy.value) ==>
              && FailsWith(r, r.state, Critical)
              && r.state == (if dir.deploy.Some? || DEPLOY in dir.files then dir else dir.(deploy := Some(map[])))
              && r.state.files == dir.files && r.state.nested == dir.nested
              && (r.state.deploy.Some? <==> dir.deploy.Some? || DEPLOY !in dir.files)
    ensures fileName + ".pdf" in dir.files && r.Done? ==>
              var pdf := fileName + ".pdf";
              var target := DeployName(fileName, newFileName, stamp) + ".pdf";
              && r.state.files == dir.files - {pdf} && r.state.nested == dir.nested
              && r.state.deploy == Some((if dir.deploy.Some? then dir.deploy.value else map[])[target := dir.files[pdf]])
              && (r.success <==> dir.deploy.None?)
              && (r.error.None? <==> r.success)
              && (r.error.Some? ==> r.error.value.severityLevel == Low.Value())
  {
    var pdf := fileName + ".pdf";
    var existed := dir.deploy.Some? || DEPLOY in dir.files;
    var created := if existed then dir else dir.(deploy := Some(map[]));
    if created.deploy.Some? && pdf in created.deploy.value then
      Raised("shutil.Error: the pdf already exists in DEPLOY")
    else if pdf !in dir.files then
      Fail(created, "The pdf document could not be found. Perhaps it was not created?", Critical)
    else if DEPLOY in dir.files then
      Raised("NotADirectoryError: DEPLOY is a file")
    else
      var moved := created.(files := created.files - {pdf},
                            deploy := Some(created.deploy.value[DeployName(fileName, newFileName, stamp) + ".pdf" := dir.files[pdf]]));
      if existed then Done(moved, false, Some(New("Folder already exists. Proceed as intended.", Low)))
      else Done(moved, true, None)
  }

  /** _move_pdf_file, with its two flag variables. */
  method MovePdfFile(fileName: string, newFileName: Option<string>, stamp: string, dir: Dir) returns (r: Effect<Dir>)
    ensures r == MoveOutcome(fileName, newFileName, stamp, dir)
  {
    var exception: Option<InternalException> := None;
    var successValue := true;
    var target := DeployName(fileName, newFileName, stamp);

    var d := dir;
    if d.deploy.Some? || DEPLOY in d.files {
      exception := Some(New("Folder already exists. Proceed as intended.", Low));
      successValue := false;
    } else {
      d := d.(deploy := Some(map[]));
    }

    var pdf := fileName + ".pdf";
    if d.deploy.Some? && pdf in d.deploy.value {
      return Raised("shutil.Error: the pdf already exists in DEPLOY");
    } else if pdf !in d.files {
      exception := Some(New("The pdf document could not be found. Perhaps it was not created?", Critical));
      successValue := false;
    } else if DEPLOY in d.files {
      return Raised("NotADirectoryError: DEPLOY is a file");
    } else {
      d := d.(files := d.files - {pdf}, deploy := Some(d.deploy.value[target + ".pdf" := dir.files[pdf]]));
    }
    return Done(d, successValue, exception);
  }

  /** The names in `files` that contain `prefix`. */
  function PrefixedNames(files: map<string, string>, prefix: string): set<string> {
    set f | f in files && Text.Contains(f, prefix)
  }

  /** The files whose name does not contain `prefix`, with their content. */
  function WithoutPrefixed(files: map<string, string>, prefix: string): (kept: map<string, string>)
    ensures forall f :: f in kept <==> f in files && !Text.Contains(f, prefix)
    ensures forall f :: f in kept ==> kept[f] == files[f]
  {
    files - PrefixedNames(files, prefix)
  }

  /**
   * What clean_working_dir does: move the pdf; with a move error of severity
   * 20 or more return `(False, error)` at once; otherwise remove every entry
   * of the working directory whose name contains the prefix (removing the
   * DEPLOY folder itself raises) and return the move's pair.
   */
  function CleanOutcome(fileName: string, config: Config, dir: Dir, stamp: string, newFileName: Option<string>): (r: Effect<State>)
    ensures var moved := MoveOutcome(fileName, newFileName, stamp, dir);
            && (moved.Raised? ==> r.Raised?)
            && (moved.Done? && moved.error.Some? && moved.error.value.severityLevel >= 20 ==>
                  r == Done(State(config, moved.state), false, moved.error))
            && (moved.Done? && !(moved.error.Some? && moved.error.value.severityLevel >= 20) ==>
                  (r.Raised? <==> Text.Contains(DEPLOY, config.filePrefix)))
            && (r.Done? && moved.Done? && !(moved.error.Some? && moved.error.value.severityLevel >= 20) ==>
                  && r.state.config == config && r.success == moved.success && r.error == moved.error
                  && r.state.dir == moved.state.(files := WithoutPrefixed(moved.state.files, config.filePrefix)))
  {
    match MoveOutcome(fileName, newFileName, stamp, dir)
    case Raised(reason) => Raised(reason)
    case Done(moved, success, error) =>
      if error.Some? && error.value.severityLevel >= 20 then Done(State(config, moved), false, error)
      else if Text.Contains(DEPLOY, config.filePrefix) then Raised("IsADirectoryError: os.remove on DEPLOY")
      else Done(State(config, moved.(files := WithoutPrefixed(moved.files, config.filePrefix))), success, error)
  }

  /**
   * The deletion loop of clean_working_dir over the directory listing, which
   * holds the files and the DEPLOY folder: every entry whose name contains the
   * prefix is removed, and removing DEPLOY raises.
   */
  method RemovePrefixedEntries(before: map<string, string>, prefix: string) returns (files: map<string, string>, raised: bool)
    ensures raised <==> Text.Contains(DEPLOY, prefix)
    ensures !raised ==> files == WithoutPrefixed(before, prefix)
  {
    files := before;
    var listing := before.Keys + {DEPLOY};
    ghost var prefixed := PrefixedNames(before, prefix);
    while listing != {}
      invariant listing <= before.Keys + {DEPLOY}
      invariant Text.Contains(DEPLOY, prefix) ==> DEPLOY in listing
      invariant forall f :: f in files <==> f in before && (f in listing || f !in prefixed)
      invariant forall f :: f in files ==> files[f] == before[f]
      decreases |listing|
    {
      var entry :| entry in listing;
      if Text.Contains(entry, prefix) {
        if entry == DEPLOY {
          return files, true;
        }
        assert entry in prefixed;
        files := files - {entry};
      } else {
        assert entry !in prefixed;
      }
      listing := listing - {entry};
    }
    SameEntries(files, before - prefixed);
    return files, false;
  }

  /** Two maps with the same keys and the same value at each key are equal. */
  lemma SameEntries(a: map<string, string>, b: map<string, string>)
    requires forall f :: f in a <==> f in b
    requires forall f :: f in a ==> a[f] == b[f]
    ensures a == b
  {
  }

  /** clean_working_dir: move the pdf, then the deletion loop. */
  method CleanWorkingDir(fileName: string, config: Config, dir: Dir, stamp: string, newFileName: Option<string> := None)
    returns (r: Effect<State>)
    ensures r == CleanOutcome(fileName, config, dir, stamp, newFileName)
  {
    var moved := MovePdfFile(fileName, newFileName, stamp, dir);
    if moved.Raised? {
      return Raised(moved.reason);
    }
    var success, exception := moved.success, moved.error;
    if exception.Some? && exception.value.severityLevel >= 20 {
      return Done(State(config, moved.state), false, exception);
    }
    var files, raised := RemovePrefixedEntries(moved.state.files, config.filePrefix);
    if raised {
      return Raised("IsADirectoryError: os.remove on DEPLOY");
    }
    return Done(State(config, moved.state.(files := files)), success, exception);
  }
}

=== FILE: pipeline.dfy ===
/**
 * The pipeline: the ordered list of steps built from two flags, the shared
 * configuration, and `execute`, which runs the steps in order, hands each the
 * current name of the working file, and folds their errors by severity.
 */
module Pipelines {
  import opened Wrappers
  import opened Enums
  import opened Exceptions
  import opened Workspace
  import opened ErrorPolicy
  import Ops = Operations

  /** The steps a pipeline can hold. */
  datatype Operation =
    | CopyLatexFile
    | RemoveDraftOption
    | CompileLatexFile
    | CreateBibliography
    | CreateGlossary
    | CleanWorkingDir

  /**
   * The order of operations: copy, remove the draft option, compile, the
   * bibliography and the glossary when asked for, compile again, clean up.
   */
  function StepList(createBib: bool, createGlo: bool): (steps: seq<Operation>)
    ensures |steps| == 5 + (if createBib then 1 else 0) + (if createGlo then 1 else 0)
    ensures steps[..3] == [CopyLatexFile, RemoveDraftOption, CompileLatexFile]
    ensures steps[|steps| - 2..] == [CompileLatexFile, CleanWorkingDir]
    ensures CreateBibliography in steps <==> createBib
    ensures CreateGlossary in steps <==> createGlo
    ensures createBib && createGlo ==> steps[3] == CreateBibliography && steps[4] == CreateGlossary
  {
    [CopyLatexFile, RemoveDraftOption, CompileLatexFile]
      + (if createBib then [CreateBibliography] else [])
      + (if createGlo then [CreateGlossary] else [])
      + [CompileLatexFile, CleanWorkingDir]
  }

  /** The configuration a new pipeline starts from. */
  function InitialConfig(verbose: bool): (config: Config)
    ensures config.newName.None? && config.filePrefix == "[piped]" && config.verbose == verbose
  {
    Config(None, "[piped]", verbose)
  }

  /** A step as the runner sees it: an operation applied to the current name and state. */
  type StepFunction = (Operation, string, State) -> Effect<State>

  /** What running one step does to the name, configuration and directory it is given. */
  function Apply(op: Operation, name: string, config: Config, dir: Dir, env: Env): Effect<State> {
    match op
    case CopyLatexFile => Ops.CopyLatexFile(name, config, dir)
    case RemoveDraftOption => Ops.RemoveDraftOption(name, config, dir)
    case CompileLatexFile => Ops.CompileLatexFile(name, config, dir, env.tool)
    case CreateBibliography => Ops.BibliographyOutcome(name, config, dir, env.tool)
    case CreateGlossary => Ops.CreateGlossary(name, config, dir, env.tool)
    case CleanWorkingDir => Ops.CleanOutcome(name, config, dir, env.stamp, None)
  }

  /** The steps of this model, with the programs and the date stamp of `env`. */
  function StepsOf(env: Env): StepFunction {
    (op: Operation, name: string, st: State) => Apply(op, name, st.config, st.dir, env)
  }

  /** Calls the step: the pipeline passes only the name and the configuration, so the clean-up moves the pdf under the stamped name. */
  method RunStep(op: Operation, name: string, config: Config, dir: Dir, env: Env) returns (r: Effect<State>)
    ensures r == Apply(op, name, config, dir, env)
  {
    match op
    case CopyLatexFile => r := Ops.CopyLatexFile(name, config, dir);
    case RemoveDraftOption => r := Ops.RemoveDraftOption(name, config, dir);
    case CompileLatexFile => r := Ops.CompileLatexFile(name, config, dir, env.tool);
    case CreateBibliography => r := Ops.CreateBibliography(name, config, dir, env.tool);
    case CreateGlossary => r := Ops.CreateGlossary(name, config, dir, env.tool);
    case CleanWorkingDir => r := Ops.CleanWorkingDir(name, config, dir, env.stamp);
  }

  /** The preparation steps and the compilation return `(True, None)` or `(False, CRITICAL)`, the draft removal also `(False, LOW)`. */
  lemma PreparationContract(name: string, config: Config, dir: Dir, tool: Tool)
    ensures var r := Ops.CopyLatexFile(name, config, dir); r.Done? && (Succeeds(r) || (IsLevel(r.error, Critical) && !r.success))
    ensures var r := Ops.CompileLatexFile(name, config, dir, tool); r.Done? && (Succeeds(r) || (IsLevel(r.error, Critical) && !r.success))
    ensures var r := Ops.RemoveDraftOption(name, config, dir);
            r.Done? ==> Succeeds(r) || ((IsLevel(r.error, Critical) || IsLevel(r.error, Low)) && !r.success)
  {
  }

  /** The bibliography step returns `(True, None)` or `(False, HIGH)`. */
  lemma BibliographyContract(name: string, config: Config, dir: Dir, tool: Tool)
    ensures var r := Ops.BibliographyOutcome(name, config, dir, tool); r.Done? && (Succeeds(r) || (IsLevel(r.error, High) && !r.success))
  {
  }

  /** The glossary step returns `(True, None)` or `(False, HIGH)`. */
  lemma GlossaryContract(name: string, config: Config, dir: Dir, tool: Tool)
    ensures var r := Ops.CreateGlossary(name, config, dir, tool); r.Done? && (Succeeds(r) || (IsLevel(r.error, High) && !r.success))
  {
    if name + ".glo" in dir.files && name + ".ist" in dir.files && name + ".aux" in dir.files {
      assert Succeeds(Ops.CreateGlossary(name, config, dir, tool));
    }
  }

  /** The clean-up returns `(True, None)`, `(False, LOW)` when DEPLOY existed, or `(False, CRITICAL)` without a pdf. */
  lemma CleanContract(name: string, config: Config, dir: Dir, stamp: string)
    ensures var r := Ops.CleanOutcome(name, config, dir, stamp, None);
            r.Done? ==> Succeeds(r) || ((IsLevel(r.error, Critical) || IsLevel(r.error, Low)) && !r.success)
    ensures var r := Ops.CleanOutcome(name, config, dir, stamp, None);
            r.Done? && name + ".pdf" !in dir.files ==> IsLevel(r.error, Critical) && !r.success
  {
    var moved := Ops.MoveOutcome(name, None, stamp, dir);
    if moved.Done? && name + ".pdf" !in dir.files {
      assert IsLevel(moved.error, Critical);
    }
  }

  /** `local_file_name` after a step: the configuration's `new_name` when it is set, the previous name otherwise. */
  function NextName(previous: string, config: Config): (name: string)
    ensures config.newName.None? ==> name == previous
    ensures config.newName.Some? ==> name == config.newName.value
  {
    config.newName.GetOr(previous)
  }

  /** One step that returned: the operation, the name it was given, the configuration it left and the error it returned. */
  datatype StepRecord = StepRecord(op: Operation, name: string, config: Config, error: Option<InternalException>)

  /** The end of `execute`: it returned the pair, or an exception of a step propagated. */
  datatype Outcome = Returned(success: bool, error: Option<InternalException>) | Propagated(reason: string)

  /** The steps that returned, in order, the outcome and the state at the end (before the failing step when one raised). */
  datatype Run = Run(outcome: Outcome, trace: seq<StepRecord>, state: State)

  /** The errors the steps of a trace returned, in order. */
  function Errors(trace: seq<StepRecord>): (errs: seq<Option<InternalException>>)
    ensures |errs| == |trace| && forall k :: 0 <= k < |trace| ==> errs[k] == trace[k].error
  {
    seq(|trace|, k requires 0 <= k < |trace| => trace[k].error)
  }

  /**
   * `execute` from step `i` on: run the step with the current name; stop if
   * it raises; otherwise take the new name from the configuration, absorb the
   * error, and return at once on a CRITICAL error. The success flag a step
   * returns is not looked at.
   */
  function RunFrom(steps: seq<Operation>, i: nat, name: string, st: State, agg: RunState, step: StepFunction): (run: Run)
    requires i <= |steps| && agg.Running?
    ensures |run.trace| <= |steps| - i
    ensures forall k :: 0 <= k < |run.trace| ==> run.trace[k].op == steps[i + k]
    ensures run.outcome.Propagated? ==> |run.trace| < |steps| - i
    decreases |steps| - i
  {
    if i == |steps| then Run(Returned(agg.success, agg.aggregate), [], st)
    else match step(steps[i], name, st)
      case Raised(reason) => Run(Propagated(reason), [], st)
      case Done(next, _, error) =>
        var record := StepRecord(steps[i], name, next.config, error);
        var absorbed := Absorb(agg, error);
        if absorbed.Aborted? then Run(Returned(false, Some(absorbed.cause)), [record], next)
        else
          var rest := RunFrom(steps, i + 1, NextName(name, next.config), next, absorbed, step);
          Run(rest.outcome, [record] + rest.trace, rest.state)
  }

  /** A run preceded by steps that already returned. */
  function After(done: seq<StepRecord>, run: Run): Run {
    Run(run.outcome, done + run.trace, run.state)
  }

  /** One step of a run: the step that returned, followed by the run of the remaining steps. */
  lemma RunFromContinues(steps: seq<Operation>, i: nat, name: string, st: State, agg: RunState, step: StepFunction)
    requires i < |steps| && agg.Running? && step(steps[i], name, st).Done?
    requires Absorb(agg, step(steps[i], name, st).error).Running?
    ensures var r := step(steps[i], name, st);
            RunFrom(steps, i, name, st, agg, step)
            == After([StepRecord(steps[i], name, r.state.config, r.error)],
                     RunFrom(steps, i + 1, NextName(name, r.state.config), r.state, Absorb(agg, r.error), step))
  {
  }

  /** A step that raises ends the run with an empty trace and the state it was given. */
  lemma RunFromRaises(steps: seq<Operation>, i: nat, name: string, st: State, agg: RunState, step: StepFunction)
    requires i < |steps| && agg.Running? && step(steps[i], name, st).Raised?
    ensures RunFrom(steps, i, name, st, agg, step) == Run(Propagated(step(steps[i], name, st).reason), [], st)
  {
  }

  /** A step whose error stops the run ends it with that error and that step's record. */
  lemma RunFromAborts(steps: seq<Operation>, i: nat, name: string, st: State, agg: RunState, step: StepFunction)
    requires i < |steps| && agg.Running? && step(steps[i], name, st).Done?
    requires Absorb(agg, step(steps[i], name, st).error).Aborted?
    ensures var r := step(steps[i], name, st);
            RunFrom(steps, i, name, st, agg, step)
            == Run(Returned(false, Some(Absorb(agg, r.error).cause)), [StepRecord(steps[i], name, r.state.config, r.error)], r.state)
  {
  }

  /** A run of the whole step list from a configuration and a directory. */
  function RunAll(steps: seq<Operation>, name: string, st: State, step: StepFunction): Run {
    RunFrom(steps, 0, name, st, Running(true, None), step)
  }

  /** What `execute` returns from a state of the fold. */
  function Report(st: RunState): (outcome: Outcome)
    ensures outcome.Returned? && (outcome.success, outcome.error) == Result(st)
  {
    Returned(Result(st).0, Result(st).1)
  }

  /**
   * The outcome of a run that returned is what the severity fold of the
   * errors of its steps gives, started from the state the run was in.
   */
  lemma {:induction false} RunFromFolds(steps: seq<Operation>, i: nat, name: string, st: State, agg: RunState, step: StepFunction)
    requires i <= |steps| && agg.Running?
    ensures var run := RunFrom(steps, i, name, st, agg, step);
            run.outcome.Returned? ==> run.outcome == Report(FoldFrom(agg, Errors(run.trace)))
    decreases |steps| - i
  {
    if i < |steps| {
      match step(steps[i], name, st)
      case Raised(_) =>
      case Done(next, _, error) =>
        var run := RunFrom(steps, i, name, st, agg, step);
        var absorbed := Absorb(agg, error);
        assert Errors(run.trace)[0] == error;
        if absorbed.Running? {
          var rest := RunFrom(steps, i + 1, NextName(name, next.config), next, absorbed, step);
          RunFromFolds(steps, i + 1, NextName(name, next.config), next, absorbed, step);
          assert Errors(run.trace)[1..] == Errors(rest.trace);
        } else {
          assert Errors(run.trace)[1..] == [];
        }
    }
  }

  /**
   * A run ends early only by a CRITICAL error or by an exception; a CRITICAL
   * error can only be the last step of the trace, and it makes the run return.
   */
  lemma {:induction false} RunFromStops(steps: seq<Operation>, i: nat, name: string, st: State, agg: RunState, step: StepFunction)
    requires i <= |steps| && agg.Running?
    ensures var run := RunFrom(steps, i, name, st, agg, step);
            && (run.outcome.Returned? && |run.trace| < |steps| - i ==>
                  |run.trace| > 0 && IsLevel(run.trace[|run.trace| - 1].error, Critical))
            && (forall k :: 0 <= k < |run.trace| && IsLevel(run.trace[k].error, Critical) ==>
                  k == |run.trace| - 1 && run.outcome.Returned?)
    decreases |steps| - i
  {
    if i < |steps| {
      match step(steps[i], name, st)
      case Raised(_) =>
      case Done(next, _, error) =>
        var absorbed := Absorb(agg, error);
        if absorbed.Running? {
          var run := RunFrom(steps, i, name, st, agg, step);
          var rest := RunFrom(steps, i + 1, NextName(name, next.config), next, absorbed, step);
          RunFromStops(steps, i + 1, NextName(name, next.config), next, absorbed, step);
          assert !IsLevel(error, Critical);
          forall k | 0 < k < |run.trace| ensures run.trace[k] == rest.trace[k - 1] {
          }
        }
    }
  }

  /**
   * Names and order: the k-th step that returned is the k-th operation of the
   * list; the first gets the name `execute` was called with, and each later
   * one the `new_name` its predecessor left in the configuration, or the
   * predecessor's name when there is none.
   */
  lemma {:induction false} RunFromPassesNames(steps: seq<Operation>, i: nat, name: string, st: State, agg: RunState, step: StepFunction)
    requires i <= |steps| && agg.Running?
    ensures var trace := RunFrom(steps, i, name, st, agg, step).trace;
            && (|trace| > 0 ==> trace[0].name == name)
            && forall k :: 0 <= k < |trace| - 1 ==> trace[k + 1].name == NextName(trace[k].name, trace[k].config)
    decreases |steps| - i
  {
    if i < |steps| {
      match step(steps[i], name, st)
      case Raised(_) =>
      case Done(next, _, error) =>
        var absorbed := Absorb(agg, error);
        if absorbed.Running? {
          RunFromPassesNames(steps, i + 1, NextName(name, next.config), next, absorbed, step);
        }
    }
  }

  /** The two results agree in everything but the success flag of a step that returned. */
  predicate SameButSuccess(a: Effect<State>, b: Effect<State>) {
    || (a.Raised? && b.Raised? && a.reason == b.reason)
    || (a.Done? && b.Done? && a.state == b.state && a.error == b.error)
  }

  /** The success flag a step returns is never read: steps that differ only in it give the same run. */
  lemma {:induction false} RunIgnoresSuccessFlags(steps: seq<Operation>, i: nat, name: string, st: State, agg: RunState,
                                                  step: StepFunction, other: StepFunction)
    requires i <= |steps| && agg.Running?
    requires forall op, n, s :: SameButSuccess(step(op, n, s), other(op, n, s))
    ensures RunFrom(steps, i, name, st, agg, step) == RunFrom(steps, i, name, st, agg, other)
    decreases |steps| - i
  {
    if i < |steps| {
      var r := step(steps[i], name, st);
      assert SameButSuccess(r, other(steps[i], name, st));
      if r.Done? && Absorb(agg, r.error).Running? {
        RunIgnoresSuccessFlags(steps, i + 1, NextName(name, r.state.config), r.state, Absorb(agg, r.error), step, other);
      }
    }
  }

  /** Some step of the trace returned a CRITICAL error. */
  predicate HitCritical(trace: seq<StepRecord>) {
    exists k :: 0 <= k < |trace| && IsLevel(trace[k].error, Critical)
  }

  /**
   * What `execute` returns. A CRITICAL error stops the run at the step that
   * returned it, and the run returns `(False, that error)` whatever was
   * recorded before. A run without one ran every step once, in order; it
   * reports success exactly when no step returned HIGH, never reports a
   * CRITICAL error, reports an error exactly when some step returned LOW or
   * HIGH (so success with a LOW error when the only errors are LOW), and
   * `(True, None)` when no step returned an error.
   */
  lemma RunReport(steps: seq<Operation>, name: string, st: State, step: StepFunction)
    ensures var run := RunAll(steps, name, st, step);
            && (run.outcome.Returned? && HitCritical(run.trace) ==>
                  && run.outcome == Returned(false, run.trace[|run.trace| - 1].error)
                  && IsLevel(run.outcome.error, Critical)
                  && forall k :: 0 <= k < |run.trace| - 1 ==> !IsLevel(run.trace[k].error, Critical))
            && (run.outcome.Returned? && !HitCritical(run.trace) ==>
                  && |run.trace| == |steps|
                  && (forall k :: 0 <= k < |steps| ==> run.trace[k].op == steps[k])
                  && (run.outcome.success <==> forall k :: 0 <= k < |steps| ==> !IsLevel(run.trace[k].error, High))
                  && !IsLevel(run.outcome.error, Critical)
                  && (run.outcome.success && run.outcome.error.Some? ==> IsLevel(run.outcome.error, Low))
                  && (run.outcome.error.Some? ==> exists k :: LastMostSevere(Errors(run.trace), k) && run.outcome.error == run.trace[k].error)
                  && (run.outcome.error.None? <==> forall k :: 0 <= k < |steps| ==> !Recorded(run.trace[k].error))
                  && ((forall k :: 0 <= k < |steps| ==> run.trace[k].error.None?) ==> run.outcome == Returned(true, None)))
  {
    var run := RunAll(steps, name, st, step);
    RunFromFolds(steps, 0, name, st, Running(true, None), step);
    RunFromStops(steps, 0, name, st, Running(true, None), step);
    FoldFromContinues([], Errors(run.trace));
    assert [] + Errors(run.trace) == Errors(run.trace);
    ReportOfRun(run, |steps|);
  }

  /** The report of a run, from what RunFromFolds and RunFromStops establish about it. */
  lemma ReportOfRun(run: Run, n: nat)
    requires |run.trace| <= n
    requires run.outcome.Returned? ==> run.outcome == Report(Fold(Errors(run.trace)))
    requires run.outcome.Returned? && |run.trace| < n ==>
               |run.trace| > 0 && IsLevel(run.trace[|run.trace| - 1].error, Critical)
    requires forall k :: 0 <= k < |run.trace| && IsLevel(run.trace[k].error, Critical) ==>
               k == |run.trace| - 1 && run.outcome.Returned?
    ensures run.outcome.Returned? && HitCritical(run.trace) ==>
              && run.outcome == Returned(false, run.trace[|run.trace| - 1].error)
              && IsLevel(run.outcome.error, Critical)
              && forall k :: 0 <= k < |run.trace| - 1 ==> !IsLevel(run.trace[k].error, Critical)
    ensures run.outcome.Returned? && !HitCritical(run.trace) ==>
              && |run.trace| == n
              && (run.outcome.success <==> forall k :: 0 <= k < n ==> !IsLevel(run.trace[k].error, High))
              && !IsLevel(run.outcome.error, Critical)
              && (run.outcome.success && run.outcome.error.Some? ==> IsLevel(run.outcome.error, Low))
              && (run.outcome.error.Some? ==> exists k :: LastMostSevere(Errors(run.trace), k) && run.outcome.error == run.trace[k].error)
              && (run.outcome.error.None? <==> forall k :: 0 <= k < n ==> !Recorded(run.trace[k].error))
              && ((forall k :: 0 <= k < n ==> run.trace[k].error.None?) ==> run.outcome == Returned(true, None))
  {
    var errs := Errors(run.trace);
    if run.outcome.Returned? {
      if HitCritical(run.trace) {
        var k :| 0 <= k < |run.trace| && IsLevel(run.trace[k].error, Critical);
        assert k == |errs| - 1;
        FoldStopsAtFirstCritical(errs, |errs| - 1);
      } else {
        assert forall j :: 0 <= j < |errs| ==> !IsLevel(errs[j], Critical);
        FoldWithoutCritical(errs);
        FoldKeepsLastMostSevere(errs);
        ReportedResult(errs);
      }
    }
  }

  /** Without `name.tex` the run stops after the copy step with its CRITICAL error, and nothing else runs. */
  lemma MissingSourceStopsAtOnce(name: string, createBib: bool, createGlo: bool, verbose: bool, dir: Dir, env: Env)
    requires name + ".tex" !in dir.files
    ensures var run := RunAll(StepList(createBib, createGlo), name, State(InitialConfig(verbose), dir), StepsOf(env));
            && |run.trace| == 1 && run.trace[0].op == CopyLatexFile
            && run.outcome.Returned? && !run.outcome.success && IsLevel(run.outcome.error, Critical)
            && run.state == State(InitialConfig(verbose), dir)
  {
    var steps := StepList(createBib, createGlo);
    assert steps[0] == CopyLatexFile;
  }

  /**
   * With `name.tex` present the copy step succeeds and sets `new_name` to
   * `[piped]_name`, and the next step is given that name.
   */
  lemma CopyRenamesWorkingFile(name: string, createBib: bool, createGlo: bool, verbose: bool, dir: Dir, env: Env)
    requires name + ".tex" in dir.files
    ensures var run := RunAll(StepList(createBib, createGlo), name, State(InitialConfig(verbose), dir), StepsOf(env));
            && |run.trace| >= 1
            && run.trace[0] == StepRecord(CopyLatexFile, name, InitialConfig(verbose).(newName := Some("[piped]_" + name)), None)
            && (|run.trace| >= 2 ==> run.trace[1].op == RemoveDraftOption && run.trace[1].name == "[piped]_" + name)
  {
    var steps := StepList(createBib, createGlo);
    var st := State(InitialConfig(verbose), dir);
    var copied := Ops.CopyLatexFile(name, st.config, dir);
    assert steps[0] == CopyLatexFile && steps[1] == RemoveDraftOption;
    assert StepsOf(env)(CopyLatexFile, name, st) == copied;
    assert copied.Done? && copied.error.None?;
    var next := copied.state;
    assert "[piped]" + "_" + name == "[piped]_" + name;
    assert next.config == InitialConfig(verbose).(newName := Some("[piped]_" + name));
    RunFromContinues(steps, 0, name, st, Running(true, None), StepsOf(env));
    RunFromPassesNames(steps, 1, NextName(name, next.config), next, Running(true, None), StepsOf(env));
  }

  /** The pipeline object: the file name it was built for, the shared configuration and the order of operations. */
  class Pipeline {
    var fileName: string
    var config: Config
    var orderOfOperations: seq<Operation>

    /** Builds the order of operations by appending to the three fixed first steps, and the configuration. */
    constructor (fileName: string, createBib: bool := false, createGlo: bool := false, verbose: bool := false)
      ensures this.fileName == fileName
      ensures config == InitialConfig(verbose)
      ensures orderOfOperations == StepList(createBib, createGlo)
    {
      var steps := [CopyLatexFile, RemoveDraftOption, CompileLatexFile];
      if createBib {
        steps := steps + [CreateBibliography];
      }
      if createGlo {
        steps := steps + [CreateGlossary];
      }
      steps := steps + [CompileLatexFile];
      steps := steps + [CleanWorkingDir];
      orderOfOperations := steps;
      config := Config(None, "[piped]", verbose);
      this.fileName := fileName;
    }

    /**
     * execute: run the order of operations on `fileName` over the directory,
     * with the configuration the pipeline holds, which the steps update. Each
     * operation is called through `step` (StepsOf(env) for the steps of this
     * model). It returns the outcome and the directory as the run leaves it.
     */
    method Execute(fileName: string, dir: Dir, step: StepFunction) returns (outcome: Outcome, dirOut: Dir)
      modifies this
      ensures var run := RunAll(old(orderOfOperations), fileName, State(old(config), dir), step);
              && outcome == run.outcome && dirOut == run.state.dir && config == run.state.config
      ensures orderOfOperations == old(orderOfOperations) && this.fileName == old(this.fileName)
    {
      var steps := orderOfOperations;
      var success := true;
      var error: Option<InternalException> := None;
      var localFileName := fileName;
      var cfg := config;
      var d := dir;
      var i := 0;
      ghost var whole := RunAll(steps, fileName, State(cfg, dir), step);
      while i < |steps|
        invariant i <= |steps|
        invariant orderOfOperations == steps && this.fileName == old(this.fileName) && config == cfg
        invariant var rest := RunFrom(steps, i, localFileName, State(cfg, d), Running(success, error), step);
                  rest.outcome == whole.outcome && rest.state == whole.state
      {
        ghost var here := State(cfg, d);
        ghost var agg := Running(success, error);
        var r := step(steps[i], localFileName, State(cfg, d));
        if r.Raised? {
          RunFromRaises(steps, i, localFileName, here, agg, step);
          return Propagated(r.reason), d;
        }
        ghost var absorbed := Absorb(agg, r.error);
        if absorbed.Running? {
          RunFromContinues(steps, i, localFileName, here, agg, step);
        } else {
          RunFromAborts(steps, i, localFileName, here, agg, step);
        }
        cfg := r.state.config;
        config := cfg;
        d := r.state.dir;
        if cfg.newName.Some? {
          localFileName := cfg.newName.value;
        }
        if r.error.Some? {
          var e := r.error.value;
          if e.severityLevel == Low.Value() {
            error := Some(SetError(error, e));
          } else if e.severityLevel == High.Value() {
            error := Some(SetError(error, e));
            success := false;
          } else if e.severityLevel == Critical.Value() {
            return Returned(false, Some(e)), d;
          }
        }
        assert absorbed == Running(success, error);
        i := i + 1;
      }
      return Returned(success, error), d;
    }
  }
}

=== FILE: text.dfy ===
/**
 * String and list helpers with the semantics of the Python built-ins the
 * pipeline uses: `str.split`, `str.join`, iterating a text file line by line
 * and writing the lines back, `list.index`/`list.pop`, the `in` substring test
 * and `str(int)`.
 */
module Text {
  import opened Wrappers

  // ---------------------------------------------------------------------------
  // str.split(sep) and sep.join(parts) for a one-character separator
  // ---------------------------------------------------------------------------

  /** `s.split(sep)`: the pieces between occurrences of `sep`, always at least one. */
  function Split(s: string, sep: char): (parts: seq<string>)
    ensures |parts| >= 1
    ensures forall i :: 0 <= i < |parts| ==> sep !in parts[i]
    decreases |s|
  {
    if |s| == 0 then [""]
    else
      var rest := Split(s[1..], sep);
      if s[0] == sep then [""] + rest
      else [[s[0]] + rest[0]] + rest[1..]
  }

  /** `sep.join(parts)`. */
  function Join(parts: seq<string>, sep: char): string
    decreases |parts|
  {
    if |parts| == 0 then ""
    else if |parts| == 1 then parts[0]
    else parts[0] + [sep] + Join(parts[1..], sep)
  }

  /** Joining the pieces of a split gives back the original string. */
  lemma {:induction false} JoinSplit(s: string, sep: char)
    ensures Join(Split(s, sep), sep) == s
    decreases |s|
  {
    if |s| > 0 {
      JoinSplit(s[1..], sep);
      var rest := Split(s[1..], sep);
      if s[0] == sep {
        var parts := [""] + rest;
        assert parts[1..] == rest;
        assert Join(parts, sep) == "" + [sep] + Join(rest, sep);
        assert s == [s[0]] + s[1..];
      } else {
        var parts := [[s[0]] + rest[0]] + rest[1..];
        if |rest| == 1 {
          assert s == [s[0]] + rest[0];
        } else {
          assert parts[1..] == rest[1..];
          assert Join(rest, sep) == rest[0] + [sep] + Join(rest[1..], sep);
          assert s == [s[0]] + s[1..];
        }
      }
    }
  }

  lemma {:induction false} SplitWithoutSeparator(s: string, sep: char)
    requires sep !in s
    ensures Split(s, sep) == [s]
    decreases |s|
  {
    if |s| > 0 {
      SplitWithoutSeparator(s[1..], sep);
      assert [s[0]] + s[1..] == s;
    }
  }

  lemma {:induction false} SplitAtFirstSeparator(a: string, b: string, sep: char)
    requires sep !in a
    ensures Split(a + [sep] + b, sep) == [a] + Split(b, sep)
    decreases |a|
  {
    if |a| == 0 {
      assert a + [sep] + b == [sep] + b;
      assert ([sep] + b)[1..] == b;
    } else {
      SplitAtFirstSeparator(a[1..], b, sep);
      assert (a + [sep] + b)[1..] == a[1..] + [sep] + b;
      assert [a[0]] + a[1..] == a;
    }
  }

  /** Splitting a join gives back the pieces, when no piece holds the separator. */
  lemma {:induction false} SplitJoin(parts: seq<string>, sep: char)
    requires |parts| >= 1
    requires forall i :: 0 <= i < |parts| ==> sep !in parts[i]
    ensures Split(Join(parts, sep), sep) == parts
    decreases |parts|
  {
    if |parts| == 1 {
      SplitWithoutSeparator(parts[0], sep);
    } else {
      SplitJoin(parts[1..], sep);
      SplitAtFirstSeparator(parts[0], Join(parts[1..], sep), sep);
      assert [parts[0]] + parts[1..] == parts;
    }
  }

  /** A character that is not in `s` is in none of its pieces. */
  lemma {:induction false} SplitAvoids(s: string, sep: char, c: char)
    requires c !in s
    ensures forall i :: 0 <= i < |Split(s, sep)| ==> c !in Split(s, sep)[i]
    decreases |s|
  {
    if |s| > 0 {
      SplitAvoids(s[1..], sep, c);
    }
  }

  /** A character other than the separator that is in no piece is not in their join. */
  lemma {:induction false} JoinAvoids(parts: seq<string>, sep: char, c: char)
    requires c != sep
    requires forall i :: 0 <= i < |parts| ==> c !in parts[i]
    ensures c !in Join(parts, sep)
    decreases |parts|
  {
    if |parts| > 1 {
      JoinAvoids(parts[1..], sep, c);
    }
  }

  // ---------------------------------------------------------------------------
  // Reading a text file line by line (each line keeps its '\n') and writing
  // the lines back with `writelines`
  // ---------------------------------------------------------------------------

  /** The lines of `s` as a Python text file yields them: each keeps its '\n'. */
  function Lines(s: string): seq<string>
    decreases |s|
  {
    if |s| == 0 then []
    else
      var rest := Lines(s[1..]);
      if s[0] == '\n' then ["\n"] + rest
      else if |rest| == 0 then [[s[0]]]
      else [[s[0]] + rest[0]] + rest[1..]
  }

  /** `writelines`: the concatenation of the lines, nothing added between them. */
  function Concat(lines: seq<string>): string
    decreases |lines|
  {
    if |lines| == 0 then "" else lines[0] + Concat(lines[1..])
  }

  /** A line as `Lines` produces it: nonempty, '\n' only at its end, and a '\n' there unless it is the last line. */
  predicate IsLine(line: string, last: bool) {
    && |line| > 0
    && (forall j :: 0 <= j < |line| - 1 ==> line[j] != '\n')
    && (!last ==> line[|line| - 1] == '\n')
  }

  predicate IsLineSeq(lines: seq<string>) {
    forall k :: 0 <= k < |lines| ==> IsLine(lines[k], k == |lines| - 1)
  }

  /** Writing back the lines that were read restores the file. */
  lemma {:induction false} ConcatLines(s: string)
    ensures Concat(Lines(s)) == s
    decreases |s|
  {
    if |s| > 0 {
      ConcatLines(s[1..]);
      var rest := Lines(s[1..]);
      if s[0] == '\n' {
        assert (["\n"] + rest)[1..] == rest;
      } else if |rest| == 0 {
        assert s[1..] == "";
      } else {
        var lines := [[s[0]] + rest[0]] + rest[1..];
        assert lines[1..] == rest[1..];
        assert Concat(rest) == rest[0] + Concat(rest[1..]);
      }
      assert s == [s[0]] + s[1..];
    }
  }

  /** Every piece `Lines` yields is a line. */
  lemma {:induction false} LinesAreLines(s: string)
    ensures IsLineSeq(Lines(s))
    decreases |s|
  {
    if |s| > 0 {
      LinesAreLines(s[1..]);
      var rest := Lines(s[1..]);
      var lines := Lines(s);
      if s[0] == '\n' {
        forall k | 0 <= k < |lines| ensures IsLine(lines[k], k == |lines| - 1) {
          if k > 0 { assert lines[k] == rest[k - 1]; }
        }
      } else if |rest| > 0 {
        forall k | 0 <= k < |lines| ensures IsLine(lines[k], k == |lines| - 1) {
          if k > 0 {
            assert lines[k] == rest[k];
          } else {
            assert IsLine(rest[0], 0 == |rest| - 1);
            assert lines[0] == [s[0]] + rest[0];
          }
        }
      }
    }
  }

  /** A line that ends in '\n' is read as exactly one line, whatever follows it. */
  lemma {:induction false} LinesAfterLine(line: string, t: string)
    requires IsLine(line, false)
    ensures Lines(line + t) == [line] + Lines(t)
    decreases |line|
  {
    if |line| == 1 {
      assert line == "\n";
      assert (line + t)[1..] == t;
    } else {
      var tail := line[1..];
      assert IsLine(tail, false) by {
        forall j | 0 <= j < |tail| - 1 ensures tail[j] != '\n' {
          assert tail[j] == line[j + 1];
        }
      }
      LinesAfterLine(tail, t);
      assert (line + t)[1..] == tail + t;
      assert line[0] != '\n';
      assert [line[0]] + tail == line;
    }
  }

  /** A text without a '\n' is one line that absorbs the first line after it. */
  lemma {:induction false} LinesAfterPartialLine(text: string, t: string)
    requires |text| > 0 && '\n' !in text
    requires |Lines(t)| > 0
    ensures Lines(text + t) == [text + Lines(t)[0]] + Lines(t)[1..]
    decreases |text|
  {
    assert text[0] != '\n';
    assert (text + t)[0] == text[0];
    if |text| == 1 {
      assert (text + t)[1..] == t;
      assert text == [text[0]];
    } else {
      LinesAfterPartialLine(text[1..], t);
      assert (text + t)[1..] == text[1..] + t;
      assert [text[0]] + (text[1..] + Lines(t)[0]) == text + Lines(t)[0];
    }
  }

  lemma {:induction false} LinesOfLastLine(line: string)
    requires IsLine(line, true)
    ensures Lines(line) == [line]
    decreases |line|
  {
    if |line| == 1 {
      assert line[1..] == "";
      assert line == [line[0]];
    } else {
      var tail := line[1..];
      assert IsLine(tail, true) by {
        forall j | 0 <= j < |tail| - 1 ensures tail[j] != '\n' {
          assert tail[j] == line[j + 1];
        }
      }
      LinesOfLastLine(tail);
      assert [line[0]] + tail == line;
    }
  }

  /** Reading back what `writelines` wrote gives the same lines, when they are lines. */
  lemma {:induction false} LinesConcat(lines: seq<string>)
    requires IsLineSeq(lines)
    ensures Lines(Concat(lines)) == lines
    decreases |lines|
  {
    if |lines| == 1 {
      assert Concat(lines) == lines[0] + "";
      assert lines[0] + "" == lines[0];
      LinesOfLastLine(lines[0]);
    } else if |lines| > 1 {
      var tail := lines[1..];
      assert IsLineSeq(tail) by {
        forall k | 0 <= k < |tail| ensures IsLine(tail[k], k == |tail| - 1) {
          assert tail[k] == lines[k + 1];
        }
      }
      LinesConcat(tail);
      assert IsLine(lines[0], false);
      LinesAfterLine(lines[0], Concat(tail));
      assert [lines[0]] + tail == lines;
    }
  }

  /** The lines after the first one, written back and read again, are unchanged. */
  lemma LinesOfTail(s: string)
    requires |Lines(s)| > 0
    ensures Lines(Concat(Lines(s)[1..])) == Lines(s)[1..]
  {
    var lines := Lines(s);
    LinesAreLines(s);
    var tail := lines[1..];
    assert IsLineSeq(tail) by {
      forall k | 0 <= k < |tail| ensures IsLine(tail[k], k == |tail| - 1) {
        assert tail[k] == lines[k + 1];
      }
    }
    LinesConcat(tail);
  }

  // ---------------------------------------------------------------------------
  // list.index / list.pop, and the `in` test on strings
  // ---------------------------------------------------------------------------

  /** `xs.index(x)`: the first position of `x`, or None where Python raises ValueError. */
  function IndexOf<T(==)>(xs: seq<T>, x: T): (r: Option<nat>)
    ensures r.Some? ==> r.value < |xs| && xs[r.value] == x && x !in xs[..r.value]
    ensures r.None? <==> x !in xs
    decreases |xs|
  {
    if |xs| == 0 then None
    else if xs[0] == x then Some(0)
    else match IndexOf(xs[1..], x)
      case None => None
      case Some(k) =>
        assert xs[1..][..k] == xs[1..k + 1];
        assert xs[..k + 1] == [xs[0]] + xs[1..k + 1];
        Some(k + 1)
  }

  /** `xs.pop(xs.index(x))` when `x` occurs: drop its first occurrence and keep the order of the rest. */
  function RemoveFirst<T(==)>(xs: seq<T>, x: T): (r: seq<T>)
    ensures x !in xs ==> r == xs
    ensures x in xs ==> |r| == |xs| - 1 && multiset(r) == multiset(xs) - multiset{x}
    ensures x in xs ==> exists k :: 0 <= k < |xs| && xs[k] == x && x !in xs[..k] && r == xs[..k] + xs[k + 1..]
  {
    match IndexOf(xs, x)
    case None => xs
    case Some(k) =>
      assert xs == xs[..k] + [xs[k]] + xs[k + 1..];
      xs[..k] + xs[k + 1..]
  }

  /** Every element left after `RemoveFirst` was an element before. */
  lemma RemoveFirstKeepsElements<T>(xs: seq<T>, x: T)
    ensures forall i :: 0 <= i < |RemoveFirst(xs, x)| ==> RemoveFirst(xs, x)[i] in xs
  {
    var r := RemoveFirst(xs, x);
    assert forall i :: 0 <= i < |r| ==> r[i] in multiset(r);
  }

  /** Python's `sub in s` on strings. */
  predicate Contains(s: string, sub: string)
    decreases |s|
  {
    sub <= s || (|s| > 0 && Contains(s[1..], sub))
  }

  predicate EndsWith(s: string, suffix: string) {
    |suffix| <= |s| && s[|s| - |suffix|..] == suffix
  }

  // ---------------------------------------------------------------------------
  // str(n) for an int, and reading it back
  // ---------------------------------------------------------------------------

  function DigitChar(d: nat): char
    requires d < 10
  {
    "0123456789"[d]
  }

  predicate IsDigit(c: char) {
    '0' <= c <= '9'
  }

  predicate AllDigits(s: string) {
    forall i :: 0 <= i < |s| ==> IsDigit(s[i])
  }

  /** The decimal digits of `n`, most significant first, no leading zero. */
  function NatToString(n: nat): (s: string)
    ensures |s| > 0 && AllDigits(s)
    decreases n
  {
    if n < 10 then [DigitChar(n)] else NatToString(n / 10) + [DigitChar(n % 10)]
  }

  /** `str(i)`: a '-' sign for a negative number, then its digits. */
  function IntToString(i: int): string {
    if i < 0 then "-" + NatToString(-i) else NatToString(i)
  }

  function DigitsValue(s: string): nat
    requires AllDigits(s)
    decreases |s|
  {
    if |s| == 0 then 0
    else
      assert IsDigit(s[|s| - 1]);
      DigitsValue(s[..|s| - 1]) * 10 + (s[|s| - 1] as int - '0' as int)
  }

  /** `int(s)` for what `IntToString` produces. */
  function ParseInt(s: string): Option<int> {
    if |s| > 0 && s[0] == '-' then
      if AllDigits(s[1..]) then Some(0 - DigitsValue(s[1..]) as int) else None
    else if AllDigits(s) then Some(DigitsValue(s)) else None
  }

  lemma {:induction false} DigitsRoundTrip(n: nat)
    ensures DigitsValue(NatToString(n)) == n
    decreases n
  {
    if n >= 10 {
      DigitsRoundTrip(n / 10);
      var s := NatToString(n);
      assert s[..|s| - 1] == NatToString(n / 10);
    }
  }

  /** `int(str(i)) == i`. */
  lemma IntRoundTrip(i: int)
    ensures ParseInt(IntToString(i)) == Some(i)
  {
    if i < 0 {
      NegativeRoundTrip(-i);
      assert IntToString(i) == "-" + NatToString(-i);
    } else {
      NonNegativeRoundTrip(i);
    }
  }

  lemma NonNegativeRoundTrip(n: nat)
    ensures ParseInt(NatToString(n)) == Some(n)
  {
    var s := NatToString(n);
    assert IsDigit(s[0]);
    DigitsRoundTrip(n);
  }

  lemma NegativeRoundTrip(n: nat)
    requires n > 0
    ensures ParseInt("-" + NatToString(n)) == Some(-(n as int))
  {
    var digits := NatToString(n);
    var s := "-" + digits;
    assert s[1..] == digits;
    DigitsRoundTrip(n);
  }
}

=== FILE: workspace.dfy ===
/** The state the steps share: the configuration dictionary and the working directory. */
module Workspace {
  import opened Wrappers
  import opened Enums
  import opened Exceptions

  /**
   * The shared configuration dictionary, one field per key of ConfigDictKeys
   * the core reads or writes: `new_name` (absent until a step renames the
   * working file), `file_prefix` and `verbose`.
   */
  datatype Config = Config(newName: Option<string>, filePrefix: string, verbose: bool)

  /**
   * The working directory: its files by name with their text, the DEPLOY
   * folder (None when it does not exist) with its files, and the names of the
   * files in any other sub-directory, which only the recursive search for a
   * bibliography file looks at. The type also admits a DEPLOY that is both a
   * file and a folder, which no real directory can be; the contracts and
   * lemmas range over that larger domain too.
   */
  datatype Dir = Dir(files: map<string, string>, deploy: Option<map<string, string>>, nested: set<string>)

  datatype State = State(config: Config, dir: Dir)

  /**
   * What a step did: it returned the pair (success, error) after bringing the
   * state to `state`, or it raised an exception it does not catch (the model
   * does not follow the directory after that).
   */
  datatype Effect<T> = Done(state: T, success: bool, error: Option<InternalException>) | Raised(reason: string)

  /** An external program (pdflatex, biber, makeglossaries) run with an argument list; its exit code is ignored. */
  type Tool = (seq<string>, Dir) -> Dir

  /** What the steps take from outside the model: the external programs, and the `%Y_%m_%d_%H_%M` date stamp of the moment the pdf is moved. */
  datatype Env = Env(tool: Tool, stamp: string)

  /** The step returned `(False, error)` with an error of the given severity and left the state as `state`. */
  predicate FailsWith<T(==)>(r: Effect<T>, state: T, level: SeverityLevels) {
    r.Done? && r.state == state && !r.success && r.error.Some? && r.error.value.severityLevel == level.Value()
  }

  /** The step returned `(True, None)`. */
  predicate Succeeds<T>(r: Effect<T>) {
    r.Done? && r.success && r.error.None?
  }

  function Fail<T(==)>(state: T, message: string, level: SeverityLevels): (r: Effect<T>)
    ensures FailsWith(r, state, level)
  {
    Done(state, false, Some(New(message, level)))
  }
}

=== FILE: wrappers.dfy ===
/** The optional value used wherever the source uses `None` or a missing key. */
module Wrappers {

  datatype Option<+T> = None | Some(value: T) {

    /** The wrapped value, or `default` when there is none. */
    function GetOr(default: T): T {
      match this
      case Some(v) => v
      case None => default
    }
  }
}
